=== FILE: README.md ===
# OTF2 writer bookkeeping

This project models the bookkeeping part of the DUMPI-to-OTF2 trace writer
(`dumpi/libotf2dump/otf2writer.cc`). The writer turns one rank's MPI call
stream into OTF2 event records. Calls to the OTF2 library are left aside.
What remains is four pieces of sequential state, each written as pure
functions over immutable maps and sequences:

- **Type registry** (`TypeSizes`): a map from MPI datatype id to byte size.
  `count_bytes` falls back to 4 bytes per element for an unknown type. The
  derived-type constructors compute their sizes by the writer's own rules,
  not by MPI extents.
- **Request tracker** (`Requests`): `incomplete_call` records outstanding
  non-blocking requests, `mpi_irecv` stores a snapshot of each receive, and
  `complete_call` emits the completion record. The wait/test family drives
  the completions.
- **Groups and communicators** (`Groups`, `Comms`, `GlobalIds`):
  - the first-pass group derivations, inclusion and exclusion by index
    (MPI_Group_incl/excl, section 6.3.2 of the MPI 3.1 standard);
  - the communicator forest built through `sub_comms`;
  - the two global-id passes over that forest. The assigner they talk to is
    modelled only through the sequence of calls made on it.
- **Collective accounting and bracketing** (`Collectives`, `Writer`):
  - the sent/received byte formulas of each collective;
  - the `_ENTER`/`_LEAVE`/`COLLECTIVE_WRAPPER` macros, which keep a running
    time window and event counter and append records to an abstract trace.

`Events` lists the records. `Writer` composes everything into one state per
rank. Its invariant `Writer.Valid` says three things: the event counter
equals the trace length, the time window covers every record, and the
tracker is well formed.

## Model

| member | source | states |
|---|---|---|
| TypeSizes.RegisterType | dumpi/libotf2dump/otf2writer.cc:634-636 | the type gets the given size; every other registered type keeps its size |
| TypeSizes.CountBytes | dumpi/libotf2dump/otf2writer.cc:1542-1551 | a registered type gives size × count, an unregistered one 4 × count; the registry is only read |
| TypeSizes.TypeIsKnown | dumpi/libotf2dump/otf2writer.cc:1281-1289 | a type is known exactly when it is registered, and then count_bytes prices it at its registered size; otherwise at the 4-byte default |
| TypeSizes.KnownAfterRegister | dumpi/libotf2dump/otf2writer.cc:1281-1289 | after register_type the registered type is known, and which other types are known is unchanged |
| TypeSizes.KnownAfterInserting | dumpi/libotf2dump/otf2writer.cc:638-643 | the inserting read of a send makes an unknown type known with size 0, so count_bytes then gives 0 instead of the default |
| TypeSizes.SizeInserting | dumpi/libotf2dump/otf2writer.cc:638-643 | `type_sizes_[type]` on an unknown type registers it with size 0 and reads 0, not the 4-byte default; a known type is read unchanged |
| TypeSizes.ContiguousSize | dumpi/libotf2dump/otf2writer.cc:1378-1391 | a size exists exactly when the base type is known, and it is count_bytes(base, count) |
| TypeSizes.VectorSize | dumpi/libotf2dump/otf2writer.cc:1412-1420 | a size exists exactly when the base type is known, and it is count_bytes(base, blocklength) × count; the stride plays no part |
| TypeSizes.IndexedSize | dumpi/libotf2dump/otf2writer.cc:1450-1459 | a size exists exactly when the base type is known, and it is count_bytes of the summed block lengths (subarray sums its subsizes the same way) |
| TypeSizes.StructSizeIsSumOfBlocks | dumpi/libotf2dump/otf2writer.cc:1480-1493 | a struct has a size exactly when every constituent is known, and then it is the sum of count_bytes over the blocks |
| TypeSizes.Define | dumpi/libotf2dump/otf2writer.cc:1412-1420 | a failed derivation leaves the registry as it was; a successful one registers the derived size |
| TypeSizes.CountBytesAdditive | dumpi/libotf2dump/otf2writer.cc:1542-1551 | count_bytes is additive in the element count |
| TypeSizes.CountAfterRegister | dumpi/libotf2dump/otf2writer.cc:634-636 | after register_type, count_bytes uses the registered size |
| TypeSizes.IndexedIsSumOfBlocks | dumpi/libotf2dump/otf2writer.cc:1450-1459 | an indexed size equals the block-by-block sum of the block sizes |
| TypeSizes.StructOfOneTypeIsIndexed | dumpi/libotf2dump/otf2writer.cc:1450-1493 | a struct whose blocks share one known type has the indexed size of the same lengths |
| TypeSizes.VectorIsNestedContiguous | dumpi/libotf2dump/otf2writer.cc:1378-1420 | a vector has the size of a contiguous type of `count` contiguous blocks |
| TypeSizes.UnknownBaseChangesNothing | dumpi/libotf2dump/otf2writer.cc:1378-1509 | contiguous, vector, indexed and subarray over an unknown base leave the registry unchanged |
| TypeSizes.StructUnknownChangesNothing | dumpi/libotf2dump/otf2writer.cc:1480-1493 | one unknown constituent means nothing is written, not even a partial sum |
| Requests.Begin | dumpi/libotf2dump/otf2writer.cc:686-690 | the null request leaves the tracker unchanged; any other id is tracked with its kind, and every other entry is kept |
| Requests.BeginIrecv | dumpi/libotf2dump/otf2writer.cc:780-789 | the snapshot is stored even for the null request, but only a non-null id is tracked |
| Requests.Complete | dumpi/libotf2dump/otf2writer.cc:698-731 | an untracked null id is a no-op; an untracked non-null id aborts; a tracked send emits its send-complete record, a tracked receive emits the receive record built from its snapshot (source, comm, tag, bytes) and drops the snapshot; only that id is untracked |
| Requests.BeginThenComplete | dumpi/libotf2dump/otf2writer.cc:686-731 | a request begun then completed emits the record of its kind (a receive built from its snapshot) and leaves no entry; completing it again aborts |
| Requests.BeginPreservesWellFormed | dumpi/libotf2dump/otf2writer.cc:780-789 | starting a send or receive keeps "every tracked receive has a snapshot, the null id is never tracked" |
| Requests.CompleteSettles | dumpi/libotf2dump/otf2writer.cc:698-731 | a completion that does not abort keeps the tracker well formed and emits only completion records stamped at the given time |
| Requests.CompleteEach | dumpi/libotf2dump/otf2writer.cc:864-874 | a batch completed in order that does not abort keeps the tracker well formed and emits only completion records stamped at the given time |
| Requests.WaitAllLoop | dumpi/libotf2dump/otf2writer.cc:815-829 | the same for the waitall loop with its `called` set |
| Requests.DedupSpec | dumpi/libotf2dump/otf2writer.cc:815-829 | the waitall batch holds each non-null id of the request array exactly once |
| Requests.WaitAllIsDedupedCompletion | dumpi/libotf2dump/otf2writer.cc:815-829 | waitall is in-order completion of the de-duplicated non-null ids |
| Requests.CompleteEachDistinct | dumpi/libotf2dump/otf2writer.cc:698-731 | distinct tracked ids complete without abort, one record each, and exactly those ids are removed |
| Requests.WaitAllCompletesEachOnce | dumpi/libotf2dump/otf2writer.cc:815-829 | when every non-null id is tracked, waitall emits one record per distinct non-null id and untracks exactly those |
| Requests.Test | dumpi/libotf2dump/otf2writer.cc:843-850 | completes nothing when the flag is 0, otherwise completes the request |
| Requests.TestAny | dumpi/libotf2dump/otf2writer.cc:853-861 | corrected form (see Findings, 853-861): completes nothing when the flag is 0 or the index is outside the array (`MPI_UNDEFINED`); otherwise completes requests[index] |
| Requests.TestAnyAsWritten | dumpi/libotf2dump/otf2writer.cc:853-861 | the code as written: with the flag set it completes requests[index] for an index in range, and whatever id the out-of-range read yields otherwise |
| Requests.TestAnyUndefinedIndex | dumpi/libotf2dump/otf2writer.cc:853-861 | with the flag set and index `MPI_UNDEFINED`, the code as written completes a stray id (aborting when it is untracked) where nothing should be completed |
| Requests.TestAll | dumpi/libotf2dump/otf2writer.cc:864-874 | completes nothing when the flag is 0, otherwise completes every request in order without de-duplication |
| Requests.Selected | dumpi/libotf2dump/otf2writer.cc:832-840 | waitsome/testsome complete requests[indices[i]] for each i < outcount, and nothing when outcount is negative (`MPI_UNDEFINED`) |
| Requests.WaitSome | dumpi/libotf2dump/otf2writer.cc:832-885 | a non-positive outcount completes nothing; the batch keeps the tracker well formed; distinct tracked requests each yield one record and exactly those are untracked |
| Requests.WaitSomeRepeatAborts | dumpi/libotf2dump/otf2writer.cc:877-885 | there is no de-duplication: naming one tracked request twice aborts on the second completion |
| Groups.Incl | dumpi/libotf2dump/otf2writer.cc:1142-1153 | the new group has one member per index, new[i] = parent[ranks[i]] |
| Groups.InclCompose | dumpi/libotf2dump/otf2writer.cc:1142-1153 | including from an included group is the same as including the composed indices |
| Groups.InclIdentity | dumpi/libotf2dump/otf2writer.cc:1142-1153 | including every index in order reproduces the parent |
| Groups.InsertSpec | dumpi/libotf2dump/otf2writer.cc:1170-1171 | inserting into the sorted index set keeps it strictly sorted with exactly the old members plus the new one |
| Groups.SortedSetSpec | dumpi/libotf2dump/otf2writer.cc:1170-1171 | the index set is the strictly sorted list of the distinct indices |
| Groups.ExclRemovesExactly | dumpi/libotf2dump/otf2writer.cc:1164-1188 | for distinct in-range indices, the corrected exclusion keeps the parent's other members in order, and the length is parent − count |
| Groups.ExclExample | dumpi/libotf2dump/otf2writer.cc:1164-1188 | excluding {1,3} from [10,11,12,13,14] gives [10,12,14] |
| Groups.ExclPastEndCounterexample | dumpi/libotf2dump/otf2writer.cc:1175-1185 | the loop as written reads past the index set: excluding [0] from [10,11,12] gives [12,0] when the stray read is 1 |
| Groups.ExclAsWritten | dumpi/libotf2dump/otf2writer.cc:1164-1188 | the code as written: a negative result size (more indices than members) gives no result, and any result has parent − count members |
| Groups.ExclAsWrittenLoop | dumpi/libotf2dump/otf2writer.cc:1175-1185 | the loop as written writes only inside the buffer sized by `resize`, so a result keeps that size |
| Groups.ExclAsWrittenAgrees | dumpi/libotf2dump/otf2writer.cc:1175-1185 | when the read past the end of the index set cannot equal a parent position, the code as written computes the corrected exclusion, so the divergence needs a stray read that equals a parent position |
| Groups.Excl | dumpi/libotf2dump/otf2writer.cc:1164-1188 | the corrected exclusion never grows the group and keeps only parent members |
| Groups.GroupInclFirstPass | dumpi/libotf2dump/otf2writer.cc:1142-1153 | the parent entry is created if missing, the new group gets the included members and keeps its other fields (local id, comm-world flag), and every other group is kept |
| Groups.GroupExclFirstPass | dumpi/libotf2dump/otf2writer.cc:1164-1188 | the new group gets the parent minus the excluded positions, with length parent − count, and keeps its other fields (local id, comm-world flag); every other group is kept |
| Comms.CommDupFirstPass | dumpi/libotf2dump/otf2writer.cc:1292-1303 | the duplicate copies the parent's global id, group and root flag; it is appended at the end of the parent's children; no other comm changes |
| Comms.CommCreateFirstPass | dumpi/libotf2dump/otf2writer.cc:1327-1339 | the new comm becomes root when this rank is the group's first member, and otherwise keeps its flag; it is appended at the end of the parent's children; no other comm changes |
| Comms.CommDupKeepsSameUpToRoots | dumpi/libotf2dump/otf2writer.cc:1292-1303 | comm_dup replayed on two tables that differ only in root flags leaves tables that differ only in root flags |
| Comms.CommCreateKeepsSameUpToRoots | dumpi/libotf2dump/otf2writer.cc:1327-1339 | the same for comm_create, even when the two ranks disagree on leading the group |
| Comms.WorldForest | dumpi/libotf2dump/otf2writer.cc:1241-1245 | the forest walked from comm-world's children has one tree per child, and every node is a table entry |
| GlobalIds.AgreeClaimsRoots | dumpi/libotf2dump/otf2writer.cc:1217-1279 | for any assigner, agree calls assign_current at exactly the tree positions where assign calls get_id for a comm on which this rank is root, in the same order |
| GlobalIds.AgreeGlobalIds | dumpi/libotf2dump/otf2writer.cc:1217-1245 | the agree pass makes the add_level/advance/remove_level calls of the forest's shape, and one assign_current per root comm |
| GlobalIds.AssignGlobalIds | dumpi/libotf2dump/otf2writer.cc:1248-1279 | the assign pass makes the same moves, writes one global id per comm in pre-order, and each id is the assigner's answer at the tree position where that comm is visited |
| GlobalIds.AssignDependsOnlyOnShape | dumpi/libotf2dump/otf2writer.cc:1248-1279 | two forests of the same shape receive the same assigner calls and the same ids in the same order |
| GlobalIds.UnfoldSameShape | dumpi/libotf2dump/otf2writer.cc:1232-1245 | two comm tables that differ only in root flags unfold a comm to trees of one shape, or both find a cycle |
| GlobalIds.UnfoldListSameShape | dumpi/libotf2dump/otf2writer.cc:1217-1245 | the same for a list of `sub_comms` |
| GlobalIds.WorldForestSameShape | dumpi/libotf2dump/otf2writer.cc:1241-1245 | tables that differ only in root flags give both a forest or neither, and the forests have one shape |
| GlobalIds.RanksAgreeOnIds | dumpi/libotf2dump/otf2writer.cc:1248-1279 | such tables store the same global ids comm by comm in pre-order, whatever the assigner answers |
| GlobalIds.StoreIds | dumpi/libotf2dump/otf2writer.cc:1261-1271 | storing the writes changes only global ids, and each comm keeps the id of its last write |
| GlobalIds.StoreIdsCoversForest | dumpi/libotf2dump/otf2writer.cc:1261-1279 | writes that follow the forest's pre-order, as the assign pass makes them, all name table entries, and storing them leaves every comm of the forest holding an id written for it |
| Collectives.Account | dumpi/libotf2dump/otf2writer.cc:888-1082 | only reduce-scatter touches the registry; barrier moves nothing; allreduce and alltoall report sent = received; a non-root rank reports nothing on the root's side of bcast, scatter(v), gather(v) and reduce |
| Collectives.BroadcastAndReduceBalance | dumpi/libotf2dump/otf2writer.cc:897-987 | over all ranks of a communicator, bcast and reduce report n payloads sent and n received |
| Collectives.GatherAndScatterBalance | dumpi/libotf2dump/otf2writer.cc:913-957 | over all ranks, gather and scatter report n send-side payloads and n receive-side payloads, so the totals balance when the signatures match |
| Collectives.ScanTotals | dumpi/libotf2dump/otf2writer.cc:990-1001 | over all ranks, scan reports n(n−1)/2 payloads sent and n(n+1)/2 received: n more received than sent |
| Collectives.VariantsWithUniformCounts | dumpi/libotf2dump/otf2writer.cc:928-1053 | with equal counts, gatherv, allgatherv and alltoallv report what gather, allgather and alltoall report |
| Collectives.ScattervWithUniformCounts | dumpi/libotf2dump/otf2writer.cc:944-972 | with equal counts, scatterv reports what scatter reports |
| Collectives.ReduceScatterUnknownType | dumpi/libotf2dump/otf2writer.cc:1070-1082 | for an unknown type, reduce-scatter reports 4-byte-default bytes sent and 0 received, and registers the type with size 0 |
| Collectives.Example | dumpi/libotf2dump/otf2writer.cc:897-1066 | 4 ranks, 8-byte type, 10 elements: bcast root (320, 80), non-root (0, 80), allreduce (320, 320), scan at rank 1 (160, 160) |
| Writer.Init | dumpi/libotf2dump/otf2writer.cc:202-214 | the fresh writer is valid, with empty tables and unset comm-world and comm-self ids |
| Writer.EnterRegion | dumpi/libotf2dump/otf2writer.cc:67-76 | `_ENTER` widens the window to the least one covering [start, stop], emits one enter record and keeps the writer valid |
| Writer.LeaveRegion | dumpi/libotf2dump/otf2writer.cc:78-84 | `_LEAVE` emits one leave record and keeps the writer valid when the stop time is inside the window |
| Writer.Bracket | dumpi/libotf2dump/otf2writer.cc:67-84 | a traced call emits enter, its own records and leave, adds 2 + its records to the event count, and keeps the writer valid |
| Writer.GenericCall | dumpi/libotf2dump/otf2writer.cc:792-796 | generic_call and the traced no-op calls emit exactly an enter and a leave, and change no table |
| Writer.CommGroup | dumpi/libotf2dump/otf2writer.cc:1314-1323 | the group check after `_LEAVE` is unreachable, so mpi_comm_group always succeeds as a plain bracket |
| Writer.SendCall | dumpi/libotf2dump/otf2writer.cc:638-672 | the send record carries `type_sizes_[type]` × count, registering an unknown type with size 0; three events |
| Writer.RecvCall | dumpi/libotf2dump/otf2writer.cc:675-682 | the receive record carries count_bytes and no table changes; three events |
| Writer.SendAndRecvDisagreeOnUnknownType | dumpi/libotf2dump/otf2writer.cc:638-682 | for an unregistered type a send records 0 bytes while the matching receive records 4 × count |
| Writer.IsendCall | dumpi/libotf2dump/otf2writer.cc:734-777 | the request is tracked as a send and the isend record carries count_bytes; the writer stays valid |
| Writer.IrecvCall | dumpi/libotf2dump/otf2writer.cc:780-789 | the receive is captured with its count_bytes size and an irecv-request record is emitted; the writer stays valid |
| Writer.Completing | dumpi/libotf2dump/otf2writer.cc:799-885 | a completing call aborts exactly when its batch aborts; otherwise its records sit between enter and leave and the writer stays valid |
| Writer.Wait | dumpi/libotf2dump/otf2writer.cc:798-812 | wait and waitany bracket the completion of the one request: abort when it aborts, otherwise its record between enter and leave; the writer stays valid |
| Writer.WaitAll | dumpi/libotf2dump/otf2writer.cc:815-829 | waitall completes the de-duplicated non-null ids at the start time and keeps the writer valid |
| Writer.WaitSome | dumpi/libotf2dump/otf2writer.cc:832-885 | waitsome/testsome complete the selected requests, repeats included; a negative outcount emits only enter and leave; the writer stays valid |
| Writer.Test | dumpi/libotf2dump/otf2writer.cc:843-850 | with flag 0 only a bracket is emitted; otherwise the request is completed |
| Writer.TestAny | dumpi/libotf2dump/otf2writer.cc:853-861 | corrected form (see Findings, 853-861): with flag 0, or an index outside the array, only a bracket is emitted; otherwise requests[index] is completed |
| Writer.TestAll | dumpi/libotf2dump/otf2writer.cc:864-874 | with flag 0 only a bracket is emitted; otherwise every request is completed in order |
| Writer.IrecvThenWait | dumpi/libotf2dump/otf2writer.cc:698-804 | a receive issued then waited on emits the receive record with the captured source, comm, tag and size at the wait's start, and is no longer tracked |
| Writer.IsendThenWait | dumpi/libotf2dump/otf2writer.cc:698-804 | a send issued then waited on emits its completion record at the wait's start and is no longer tracked |
| Writer.Collective | dumpi/libotf2dump/otf2writer.cc:86-89 | the trace gains exactly enter, collective-begin at the start, collective-end at the stop with the call's operation, comm, root and accounted bytes, and leave; the window covers [start, stop]; the writer stays valid |
| Writer.RegisterType | dumpi/libotf2dump/otf2writer.cc:634-636 | after registration, count_bytes of one element is the registered size |
| Writer.TypeDerivedOrFail | dumpi/libotf2dump/otf2writer.cc:1378-1391 | an unknown base returns the unknown-type error after the enter record alone; otherwise the size is stored and the call is bracketed |
| Writer.TypeContiguous | dumpi/libotf2dump/otf2writer.cc:1378-1391 | the error is returned exactly for an unknown base, with only the enter record and the registry unchanged; otherwise the registry is the old one with the new type at count_bytes(base, count), the trace gains enter and leave, and no other table changes |
| Writer.TypeSubarray | dumpi/libotf2dump/otf2writer.cc:1496-1509 | the error is returned exactly for an unknown base; otherwise the registry gains the new type at count_bytes(base, Σ subsizes), the trace gains enter and leave, and no other table changes |
| Writer.TypeVector | dumpi/libotf2dump/otf2writer.cc:1394-1420 | an unknown base leaves the registry alone; otherwise it gains the new type at count_bytes(base, blocklength) × count; the trace gains enter and leave; no other table changes |
| Writer.TypeIndexed | dumpi/libotf2dump/otf2writer.cc:1423-1459 | an unknown base leaves the registry alone; otherwise it gains the new type at count_bytes(base, Σ lengths); the trace gains enter and leave; no other table changes |
| Writer.TypeStruct | dumpi/libotf2dump/otf2writer.cc:1462-1493 | an unknown constituent leaves the registry alone; otherwise it gains the new type at the sum of the block sizes; the trace gains enter and leave; no other table changes |
| Writer.RegisterCommWorld | dumpi/libotf2dump/otf2writer.cc:590-601 | marks the comm-world group and fills in the comm-world entry (keeping its root flag), adds no group members, leaves the comm-world id unset, and changes nothing else |
| Writer.RegisterCommSelf | dumpi/libotf2dump/otf2writer.cc:603-611 | records the comm-self id and fills in its entry; every other comm and every other field is kept |
| Writer.RegisterNullRequest | dumpi/libotf2dump/otf2writer.cc:621-623 | changes only the sentinel; the writer stays valid when the new sentinel is not an outstanding request |
| Writer.GroupInclFirstPass | dumpi/libotf2dump/otf2writer.cc:1142-1153 | the group table is exactly the incl update: the new group holds the included members and keeps its other fields, the parent entry exists, every other group is kept, and nothing but the group table changes (no event) |
| Writer.GroupExclFirstPass | dumpi/libotf2dump/otf2writer.cc:1164-1188 | the group table is exactly the excl update: the new group holds the corrected exclusion and keeps its other fields, the parent entry exists, every other group is kept, and nothing but the group table changes (no event) |
| Writer.CommDupFirstPass | dumpi/libotf2dump/otf2writer.cc:1292-1303 | the comm table becomes the comm_dup update and nothing else changes (no event) |
| Writer.CommCreateFirstPass | dumpi/libotf2dump/otf2writer.cc:1327-1339 | the comm table becomes the comm_create update with this writer's world rank, and nothing else changes (no event) |
| Writer.AgreeGlobalIds | dumpi/libotf2dump/otf2writer.cc:1217-1245 | yields the assigner calls exactly when the links form a forest; for any assigner, the assign_current calls sit exactly at the positions where the assign pass asks for the id of a root comm |
| Writer.WithWorld | dumpi/libotf2dump/otf2writer.cc:1274-1277 | reading `comms_[MPI_COMM_WORLD_ID]` adds the comm-world key, default-constructed if it was missing, and keeps every other entry |
| Writer.AssignGlobalIds | dumpi/libotf2dump/otf2writer.cc:1274-1279 | the comm-world entry is created if missing, as `comms_[MPI_COMM_WORLD_ID]` does, so the table gains exactly that key; otherwise only global ids change, every comm of the forest holds an id written for it, and nothing else in the state changes |

## Left out

- Archive and file-system I/O are not modelled: opening, closing, writing definition files and creating directories only call the OTF2 library or the file system. Records go to an abstract trace instead of the OTF2 encoding.
- The OTF2 callback shims, logging, `set_verbosity` and `set_clock_resolution` are left out: they produce no state the core reads.
- Region and string interning live in a header that is not part of this model. Enter and leave records carry the call name instead of an interned id.
- `global_id_assigner` and `tree_id` live in a header that is not part of this model. The assigner's answer is a parameter `getId`, a function of the history of `tree_id` moves.
- `get_world_rank`, `get_comm_rank` and `get_comm_size` are stubs that return 0 in the source. Their results are parameters of each collective (`Collectives.Ranks`), so the formulas hold for any answer, including 0.
- Integer widths are not modelled: counts and sizes are unbounded, with no 32/64-bit wrap-around in `count_bytes` or in the collective products.
- The header constants `MPI_COMM_WORLD_ID`, `MPI_COMM_SELF_ID`, `COMM_WORLD_GROUP_ID`, `COMM_SELF_GROUP_ID` and `undefined_root` are not visible. They are placeholder constants, or a parameter for `undefined_root`; only their distinctness matters.
- Entries created by `operator[]` are taken as value-initialised: id 0, empty name, no members, not root.
- Writer.GroupUnimplementedFirstPass: union, difference, intersection and range_incl first passes throw. They are modelled only as the `Unimplemented` outcome; the default entries they insert before throwing are not modelled.
- Comms.CommSplitFirstPass: the source's first pass is a TODO with no effect, and it is modelled as the identity.
- `register_comm_error` and `register_comm_null` only store an id that nothing in the core reads. They are not modelled as operations.
- Writer.AgreeGlobalIds: returns only the calls made on the assigner, not a new state. The comm-world entry that its `comms_[MPI_COMM_WORLD_ID]` read inserts when comm-world is unregistered is therefore not added; `Writer.AssignGlobalIds` does add it.
- Comms.WorldForest: a `sub_comms` cycle, or a child missing from the table, gives `None`. The source would recurse without end, or follow a dangling reference.
- Comms.CommCreateFirstPass: requires the group to have a member, because the source reads `global_ranks[0]` unchecked. An unknown group is not reported as an error.
- Groups.GroupInclFirstPass: requires `group != newgroup` and indices in range. The source aliases parent and child when the ids are equal, and reads out of bounds for a bad index.
- Groups.GroupExclFirstPass: additionally requires distinct indices, as MPI does. The source sizes the result with `count`, not with the number of distinct indices.
- Requests.Complete: for a tracked receive, the source reads the snapshot before checking that it exists. The model aborts in that case, and the invariant `Requests.WellFormed` shows the case never arises.
- Writer.RegisterNullRequest: the null sentinel has no initial value in the constructor. `Writer.Init` takes it as a parameter.
- The comm-world `comm` argument and the time of each record are unsigned 64-bit in the source. `Writer.NoStart` stands for the `~0` initial start time.

## Findings

| source | as written | input that shows it | evidently intended | confidence | as-written member | corrected member |
|---|---|---|---|---|---|---|
| dumpi/libotf2dump/otf2writer.cc:1175-1185 | the loop reads `*iter` on every parent position, even after the sorted index set is used up | parent [10,11,12], exclude [0]: past the set's end the read value is undefined; if it reads 1, the result is [12,0] | stop comparing once the set is used up, giving [11,12] | medium, not executed: the value read past the end depends on the standard library | Groups.ExclPastEndCounterexample | Groups.ExclRemovesExactly |
| dumpi/libotf2dump/otf2writer.cc:853-861 | `requests[index]` is read and completed whenever `flag` is set | flag 1 with index `MPI_UNDEFINED` (-32766 in MPICH and Open MPI), which MPI_Testany returns when no request is active: the read lies outside the array, and an untracked value aborts the writer | complete nothing when the index names no request | medium, not executed: whether DUMPI records such a call with flag set depends on the MPI library | Requests.TestAnyUndefinedIndex | Requests.TestAny |

=== FILE: collectives.dfy ===
/** Byte accounting of the collective calls: for each call, the bytes this
    rank reports as sent and as received in the collective-end record. The
    writer follows the profiler convention that the root of a one-to-all
    call sends once per member, and the root of an all-to-one call receives
    once per member, so that the totals over all ranks balance. */
module Collectives {
  import opened Common
  import opened TypeSizes
  import opened Events

  /** The answers of the rank queries for one call: `get_world_rank(root, comm)`,
      `get_comm_rank(comm, world rank)` and `get_comm_size(comm)`. */
  datatype Ranks = Ranks(worldRoot: int, commRank: int, commSize: int)

  /** The arguments of each collective that enter its accounting. The
      `v` variants and reduce-scatter carry the caller's own `comm_size`. */
  datatype Call =
    | BarrierCall
    | BcastCall(count: int, dtype: int, root: int)
    | GatherCall(sendcount: int, sendtype: int, recvcount: int, recvtype: int, root: int)
    | GathervCall(size: int, sendcount: int, sendtype: int, recvcounts: seq<int>, recvtype: int, root: int)
    | ScatterCall(sendcount: int, sendtype: int, recvcount: int, recvtype: int, root: int)
    | ScattervCall(size: int, sendcounts: seq<int>, sendtype: int, recvcount: int, recvtype: int, root: int)
    | ReduceCall(count: int, dtype: int, root: int)
    | ScanCall(count: int, dtype: int)
    | AllgatherCall(sendcount: int, sendtype: int, recvcount: int, recvtype: int)
    | AllgathervCall(size: int, sendcount: int, sendtype: int, recvcounts: seq<int>, recvtype: int)
    | AlltoallCall(sendcount: int, sendtype: int, recvcount: int, recvtype: int)
    | AlltoallvCall(size: int, sendcounts: seq<int>, sendtype: int, recvcounts: seq<int>, recvtype: int)
    | AllreduceCall(count: int, dtype: int)
    | ReduceScatterCall(size: int, recvcounts: seq<int>, dtype: int)

  /** What one call reports, with the registry afterwards (only
      reduce-scatter can change it). */
  datatype Flow = Flow(reg: Registry, sent: int, received: int)

  /** `array_sum(a, n)`: the first `n` entries added up; no entry when `n`
      is not positive. */
  function ArraySum(a: seq<int>, n: int): (r: int)
    requires n <= |a|
    ensures n <= 0 ==> r == 0
    ensures 0 <= n ==> r == Sum(a[..n])
  {
    if n <= 0 then 0 else Sum(a[..n])
  }

  /** The count arrays are read for `comm_size` entries, and reduce-scatter
      reads the entry of this rank. */
  predicate ArgumentsInRange(ranks: Ranks, call: Call)
  {
    match call
    case GathervCall(n, _, _, rc, _, _) => n <= |rc|
    case ScattervCall(n, sc, _, _, _, _) => n <= |sc|
    case AllgathervCall(n, _, _, rc, _) => n <= |rc|
    case AlltoallvCall(n, sc, _, rc, _) => n <= |sc| && n <= |rc|
    case ReduceScatterCall(_, rc, _) => 0 <= ranks.commRank < |rc|
    case _ => true
  }

  /** The collective kind the call reports. */
  function OpOf(call: Call): CollectiveOp
  {
    match call
    case BarrierCall => Barrier
    case BcastCall(_, _, _) => Bcast
    case GatherCall(_, _, _, _, _) => Gather
    case GathervCall(_, _, _, _, _, _) => Gatherv
    case ScatterCall(_, _, _, _, _) => Scatter
    case ScattervCall(_, _, _, _, _, _) => Scatterv
    case ReduceCall(_, _, _) => Reduce
    case ScanCall(_, _) => Scan
    case AllgatherCall(_, _, _, _) => Allgather
    case AllgathervCall(_, _, _, _, _) => Allgatherv
    case AlltoallCall(_, _, _, _) => Alltoall
    case AlltoallvCall(_, _, _, _, _) => Alltoallv
    case AllreduceCall(_, _) => Allreduce
    case ReduceScatterCall(_, _, _) => ReduceScatter
  }

  /** Rooted calls report their `root` argument; the others report the
      header's `undefined_root` sentinel. */
  predicate IsRooted(call: Call)
  {
    call.BcastCall? || call.GatherCall? || call.GathervCall? || call.ScatterCall?
    || call.ScattervCall? || call.ReduceCall?
  }

  function RootOf(call: Call, undefinedRoot: int): (r: int)
    ensures IsRooted(call) ==> r == call.root
    ensures !IsRooted(call) ==> r == undefinedRoot
  {
    if IsRooted(call) then call.root else undefinedRoot
  }

  /** The sent and received byte counts of `mpi_barrier` … `mpi_reduce_scatter`
      on the rank `worldRank`. */
  function Account(reg: Registry, worldRank: int, ranks: Ranks, call: Call): (f: Flow)
    requires ArgumentsInRange(ranks, call)
    ensures !call.ReduceScatterCall? ==> f.reg == reg
    ensures call.ReduceScatterCall? ==> f.reg == SizeInserting(reg, call.dtype).0
    ensures call.BarrierCall? ==> f.sent == 0 && f.received == 0
    ensures call.AllreduceCall? || call.AlltoallCall? ==> f.sent == f.received
    // a rank that is not the root has no share of the root's side
    ensures (worldRank != ranks.worldRoot && (call.BcastCall? || call.ScatterCall? || call.ScattervCall?))
              ==> f.sent == 0
    ensures (worldRank != ranks.worldRoot && (call.GatherCall? || call.GathervCall? || call.ReduceCall?))
              ==> f.received == 0
  {
    var isRoot := ranks.worldRoot == worldRank;
    var size := ranks.commSize;
    match call
    case BarrierCall => Flow(reg, 0, 0)
    case BcastCall(count, t, _) =>
      var bytes := CountBytes(reg, t, count);
      Flow(reg, if isRoot then bytes * size else 0, bytes)
    case GatherCall(sc, st, rc, rt, _) =>
      Flow(reg, CountBytes(reg, st, sc), if isRoot then CountBytes(reg, rt, rc) * size else 0)
    case GathervCall(n, sc, st, rcs, rt, _) =>
      Flow(reg, CountBytes(reg, st, sc), if isRoot then CountBytes(reg, rt, ArraySum(rcs, n)) else 0)
    case ScatterCall(sc, st, rc, rt, _) =>
      Flow(reg, if isRoot then CountBytes(reg, st, sc) * size else 0, CountBytes(reg, rt, rc))
    case ScattervCall(n, scs, st, rc, rt, _) =>
      Flow(reg, if isRoot then CountBytes(reg, st, ArraySum(scs, n)) else 0, CountBytes(reg, rt, rc))
    case ReduceCall(count, t, _) =>
      var sent := CountBytes(reg, t, count);
      Flow(reg, sent, if isRoot then sent * size else 0)
    case ScanCall(count, t) =>
      var bytes := CountBytes(reg, t, count);
      Flow(reg, (size - ranks.commRank - 1) * bytes, (ranks.commRank + 1) * bytes)
    case AllgatherCall(sc, st, rc, rt) =>
      Flow(reg, size * CountBytes(reg, st, sc), size * CountBytes(reg, rt, rc))
    case AllgathervCall(n, sc, st, rcs, rt) =>
      Flow(reg, n * CountBytes(reg, st, sc), CountBytes(reg, rt, ArraySum(rcs, n)))
    case AlltoallCall(_, _, rc, rt) =>
      var transmitted := size * CountBytes(reg, rt, rc);
      Flow(reg, transmitted, transmitted)
    case AlltoallvCall(n, scs, st, rcs, rt) =>
      Flow(reg, CountBytes(reg, st, ArraySum(scs, n)), CountBytes(reg, rt, ArraySum(rcs, n)))
    case AllreduceCall(count, t) =>
      var bytes := CountBytes(reg, t, count) * size;
      Flow(reg, bytes, bytes)
    case ReduceScatterCall(n, rcs, t) =>
      var (reg', width) := SizeInserting(reg, t);
      Flow(reg', CountBytes(reg, t, n), n * rcs[ranks.commRank] * width)
  }

  // ---------------------------------------------------------------------
  // Totals over the ranks of a communicator

  /** `f(0) + … + f(n - 1)`. */
  function Over(n: nat, f: int -> int): int
  {
    if n == 0 then 0 else Over(n - 1, f) + f(n - 1)
  }

  lemma {:induction false} OverConstant(n: nat, f: int -> int, c: int)
    requires forall r :: 0 <= r < n ==> f(r) == c
    ensures Over(n, f) == n * c
  {
    if n > 0 {
      OverConstant(n - 1, f, c);
    }
  }

  lemma {:induction false} OverSingle(n: nat, f: int -> int, root: int, c: int)
    requires 0 <= root < n
    requires forall r :: 0 <= r < n ==> f(r) == (if r == root then c else 0)
    ensures Over(n, f) == c
  {
    if n - 1 == root {
      OverConstant(n - 1, f, 0);
    } else {
      OverSingle(n - 1, f, root, c);
    }
  }

  lemma {:induction false} OverAffine(n: nat, f: int -> int, a: int, b: int)
    requires forall r :: 0 <= r < n ==> f(r) == a * r + b
    ensures 2 * Over(n, f) == a * n * (n - 1) + 2 * b * n
  {
    if n > 0 {
      OverAffine(n - 1, f, a, b);
      assert a * (n - 1) * (n - 2) + 2 * a * (n - 1) == a * n * (n - 1);
    }
  }

  /** The accounting of one call on each rank of a communicator of `n`
      ranks that is the world itself (comm rank = world rank), with the root
      at rank `root`. */
  function OnRank(reg: Registry, n: int, root: int, call: Call, r: int): Flow
    requires ArgumentsInRange(Ranks(root, r, n), call)
  {
    Account(reg, r, Ranks(root, r, n), call)
  }

  function TotalSent(reg: Registry, n: nat, root: int, call: Call): int
    requires !call.ReduceScatterCall?
  {
    Over(n, r => if ArgumentsInRange(Ranks(root, r, n), call) then OnRank(reg, n, root, call, r).sent else 0)
  }

  function TotalReceived(reg: Registry, n: nat, root: int, call: Call): int
    requires !call.ReduceScatterCall?
  {
    Over(n, r => if ArgumentsInRange(Ranks(root, r, n), call) then OnRank(reg, n, root, call, r).received else 0)
  }

  /** Broadcast and reduce balance: over all ranks, the bytes reported sent
      equal the bytes reported received, `n` copies of the payload each. */
  lemma BroadcastAndReduceBalance(reg: Registry, n: nat, root: int, count: int, t: int)
    requires 0 <= root < n
    ensures TotalSent(reg, n, root, BcastCall(count, t, root)) == n * CountBytes(reg, t, count)
    ensures TotalReceived(reg, n, root, BcastCall(count, t, root)) == n * CountBytes(reg, t, count)
    ensures TotalSent(reg, n, root, ReduceCall(count, t, root)) == n * CountBytes(reg, t, count)
    ensures TotalReceived(reg, n, root, ReduceCall(count, t, root)) == n * CountBytes(reg, t, count)
  {
    var bytes := CountBytes(reg, t, count);
    var b := BcastCall(count, t, root);
    var d := ReduceCall(count, t, root);
    OverSingle(n, r => if ArgumentsInRange(Ranks(root, r, n), b) then OnRank(reg, n, root, b, r).sent else 0, root, bytes * n);
    OverConstant(n, r => if ArgumentsInRange(Ranks(root, r, n), b) then OnRank(reg, n, root, b, r).received else 0, bytes);
    OverConstant(n, r => if ArgumentsInRange(Ranks(root, r, n), d) then OnRank(reg, n, root, d, r).sent else 0, bytes);
    OverSingle(n, r => if ArgumentsInRange(Ranks(root, r, n), d) then OnRank(reg, n, root, d, r).received else 0, root, bytes * n);
  }

  /** Gather and scatter: the non-root side moves one payload per rank and
      the root side `n` of them, so the totals balance exactly when the send
      and receive signatures carry the same bytes, as the MPI standard
      requires of a matched gather or scatter. */
  lemma GatherAndScatterBalance(reg: Registry, n: nat, root: int, sc: int, st: int, rc: int, rt: int)
    requires 0 <= root < n
    ensures TotalSent(reg, n, root, GatherCall(sc, st, rc, rt, root)) == n * CountBytes(reg, st, sc)
    ensures TotalReceived(reg, n, root, GatherCall(sc, st, rc, rt, root)) == n * CountBytes(reg, rt, rc)
    ensures TotalSent(reg, n, root, ScatterCall(sc, st, rc, rt, root)) == n * CountBytes(reg, st, sc)
    ensures TotalReceived(reg, n, root, ScatterCall(sc, st, rc, rt, root)) == n * CountBytes(reg, rt, rc)
  {
    var g := GatherCall(sc, st, rc, rt, root);
    var s := ScatterCall(sc, st, rc, rt, root);
    OverConstant(n, r => if ArgumentsInRange(Ranks(root, r, n), g) then OnRank(reg, n, root, g, r).sent else 0, CountBytes(reg, st, sc));
    OverSingle(n, r => if ArgumentsInRange(Ranks(root, r, n), g) then OnRank(reg, n, root, g, r).received else 0, root, CountBytes(reg, rt, rc) * n);
    OverSingle(n, r => if ArgumentsInRange(Ranks(root, r, n), s) then OnRank(reg, n, root, s, r).sent else 0, root, CountBytes(reg, st, sc) * n);
    OverConstant(n, r => if ArgumentsInRange(Ranks(root, r, n), s) then OnRank(reg, n, root, s, r).received else 0, CountBytes(reg, rt, rc));
  }

  /** Scan: rank `r` receives the prefix of `r + 1` contributions and sends
      to the `n - r - 1` ranks after it, so over all ranks `n` payloads more
      are received than sent (each rank's own contribution). */
  lemma ScanTotals(reg: Registry, n: nat, count: int, t: int)
    ensures 2 * TotalSent(reg, n, 0, ScanCall(count, t)) == n * (n - 1) * CountBytes(reg, t, count)
    ensures 2 * TotalReceived(reg, n, 0, ScanCall(count, t)) == n * (n + 1) * CountBytes(reg, t, count)
    ensures TotalReceived(reg, n, 0, ScanCall(count, t)) - TotalSent(reg, n, 0, ScanCall(count, t))
         == n * CountBytes(reg, t, count)
  {
    var bytes := CountBytes(reg, t, count);
    var c := ScanCall(count, t);
    OverAffine(n, r => if ArgumentsInRange(Ranks(0, r, n), c) then OnRank(reg, n, 0, c, r).sent else 0, -bytes, (n - 1) * bytes);
    OverAffine(n, r => if ArgumentsInRange(Ranks(0, r, n), c) then OnRank(reg, n, 0, c, r).received else 0, bytes, bytes);
    ScanArithmetic(n, bytes, TotalSent(reg, n, 0, c), TotalReceived(reg, n, 0, c));
  }

  lemma ScanArithmetic(n: int, bytes: int, sent: int, received: int)
    requires 2 * sent == -bytes * n * (n - 1) + 2 * ((n - 1) * bytes) * n
    requires 2 * received == bytes * n * (n - 1) + 2 * bytes * n
    ensures 2 * sent == n * (n - 1) * bytes
    ensures 2 * received == n * (n + 1) * bytes
    ensures received - sent == n * bytes
  {
    assert -bytes * n * (n - 1) + 2 * ((n - 1) * bytes) * n == n * (n - 1) * bytes;
    assert bytes * n * (n - 1) + 2 * bytes * n == n * (n + 1) * bytes;
    assert n * (n + 1) * bytes - n * (n - 1) * bytes == 2 * n * bytes;
  }

  /** `count_bytes` scales with the element count. */
  lemma CountBytesScales(reg: Registry, t: int, n: int, c: int)
    ensures CountBytes(reg, t, n * c) == n * CountBytes(reg, t, c)
  {
    if t in reg {
      assert reg[t] * (n * c) == n * (reg[t] * c);
    }
  }

  /** Uniform counts: `n` entries all equal to `c` add up to `n * c`. */
  lemma {:induction false} ArraySumUniform(a: seq<int>, n: int, c: int)
    requires 0 <= n <= |a|
    requires forall i :: 0 <= i < n ==> a[i] == c
    ensures ArraySum(a, n) == n * c
    decreases n
  {
    if n > 0 {
      ArraySumUniform(a, n - 1, c);
      assert a[..n][..n - 1] == a[..n - 1];
    }
  }

  /** The `v` variants agree with the plain calls when every rank's count is
      the same and the call's `comm_size` is the communicator size; the
      all-to-all sent side agrees only when send and receive carry the same
      bytes, since `mpi_alltoall` computes it from the receive type. */
  lemma VariantsWithUniformCounts(reg: Registry, worldRank: int, ranks: Ranks, counts: seq<int>,
                                  sc: int, st: int, rc: int, rt: int, root: int)
    requires 0 <= ranks.commSize <= |counts|
    requires forall i :: 0 <= i < ranks.commSize ==> counts[i] == rc
    ensures Account(reg, worldRank, ranks, GathervCall(ranks.commSize, sc, st, counts, rt, root))
         == Account(reg, worldRank, ranks, GatherCall(sc, st, rc, rt, root))
    ensures Account(reg, worldRank, ranks, AllgathervCall(ranks.commSize, sc, st, counts, rt))
         == Account(reg, worldRank, ranks, AllgatherCall(sc, st, rc, rt))
    ensures Account(reg, worldRank, ranks, AlltoallvCall(ranks.commSize, counts, rt, counts, rt))
         == Account(reg, worldRank, ranks, AlltoallCall(sc, st, rc, rt))
  {
    ArraySumUniform(counts, ranks.commSize, rc);
    CountBytesScales(reg, rt, ranks.commSize, rc);
  }

  /** The scatterv counterpart: uniform send counts give the scatter figures. */
  lemma ScattervWithUniformCounts(reg: Registry, worldRank: int, ranks: Ranks, counts: seq<int>,
                                  sc: int, st: int, rc: int, rt: int, root: int)
    requires 0 <= ranks.commSize <= |counts|
    requires forall i :: 0 <= i < ranks.commSize ==> counts[i] == sc
    ensures Account(reg, worldRank, ranks, ScattervCall(ranks.commSize, counts, st, rc, rt, root))
         == Account(reg, worldRank, ranks, ScatterCall(sc, st, rc, rt, root))
  {
    ArraySumUniform(counts, ranks.commSize, sc);
    CountBytesScales(reg, st, ranks.commSize, sc);
  }

  /** Reduce-scatter reads the type size through `operator[]`: for a type the
      registry does not know, the received side is 0 while the sent side uses
      the 4-byte default, and the type is left registered with size 0. */
  lemma ReduceScatterUnknownType(reg: Registry, worldRank: int, ranks: Ranks, n: int, counts: seq<int>, t: int)
    requires t !in reg && 0 <= ranks.commRank < |counts|
    ensures Account(reg, worldRank, ranks, ReduceScatterCall(n, counts, t))
         == Flow(reg[t := 0], DefaultSize * n, 0)
    ensures CountBytes(Account(reg, worldRank, ranks, ReduceScatterCall(n, counts, t)).reg, t, 1) == 0
  {
  }

  /** Four ranks, an 8-byte type and ten elements. */
  lemma Example(reg: Registry, t: int)
    requires t in reg && reg[t] == 8
    ensures Account(reg, 0, Ranks(0, 0, 4), BcastCall(10, t, 0)) == Flow(reg, 320, 80)
    ensures Account(reg, 2, Ranks(0, 2, 4), BcastCall(10, t, 0)) == Flow(reg, 0, 80)
    ensures Account(reg, 2, Ranks(0, 2, 4), AllreduceCall(10, t)) == Flow(reg, 320, 320)
    ensures Account(reg, 1, Ranks(0, 1, 4), ScanCall(10, t)) == Flow(reg, 160, 160)
  {
  }
}

=== FILE: common.dfy ===
/** Small shared definitions: an optional value and the running sum the
    writer uses for count arrays (`array_sum`). */
module Common {

  datatype Option<+T> = None | Some(value: T)

  /** Sum of the elements, accumulated left to right as `array_sum` does. */
  function Sum(s: seq<int>): int
  {
    if |s| == 0 then 0 else Sum(s[..|s| - 1]) + s[|s| - 1]
  }

  lemma {:induction false} SumAppend(a: seq<int>, b: seq<int>)
    ensures Sum(a + b) == Sum(a) + Sum(b)
    decreases |b|
  {
    if |b| == 0 {
      assert a + b == a;
    } else {
      assert (a + b)[..|a + b| - 1] == a + b[..|b| - 1];
      SumAppend(a, b[..|b| - 1]);
    }
  }

  /** The sum seen from the front: first element plus the sum of the rest. */
  lemma {:induction false} SumCons(s: seq<int>)
    requires |s| > 0
    ensures Sum(s) == s[0] + Sum(s[1..])
  {
    assert s == [s[0]] + s[1..];
    SumAppend([s[0]], s[1..]);
    assert Sum([s[0]]) == Sum([]) + s[0] by {
      assert [s[0]][..0] == [];
    }
  }
}

=== FILE: comms.dfy ===
/** Communicators as the writer records them during the first pass: a table
    from local communicator id to its record, where each record lists the
    communicators derived from it (`sub_comms`) in creation order. */
module Comms {
  import opened Common
  import Groups

  datatype Comm = Comm(localId: int, globalId: int, localGroupId: int, isRoot: bool,
                       name: string, subComms: seq<int>)

  type CommTable = map<int, Comm>

  /** Ids fixed by the writer's header; only their distinctness matters here. */
  const CommWorldId: int := 0
  const CommSelfId: int := 1
  const CommWorldGroupId: int := 1
  const CommSelfGroupId: int := 2

  /** The value `comms_[id]` creates for an id it has not seen. */
  const FreshComm: Comm := Comm(0, 0, 0, false, "", [])

  /** `comms_[id]` read through `operator[]`. */
  function Lookup(comms: CommTable, id: int): (c: Comm)
    ensures id in comms ==> c == comms[id]
    ensures id !in comms ==> c == FreshComm
  {
    if id in comms then comms[id] else FreshComm
  }

  /** Append `child` to the `sub_comms` of `parent` (which must exist). */
  function AddChild(comms: CommTable, parent: int, child: int): (r: CommTable)
    requires parent in comms
    ensures r == comms[parent := comms[parent].(subComms := comms[parent].subComms + [child])]
  {
    comms[parent := comms[parent].(subComms := comms[parent].subComms + [child])]
  }

  /** `mpi_comm_dup_first_pass`: the duplicate takes the parent's global id,
      group and root flag, and is appended to the parent's children. */
  function CommDupFirstPass(comms: CommTable, comm: int, newcomm: int): (r: CommTable)
    ensures r.Keys == comms.Keys + {comm, newcomm}
    ensures comm != newcomm ==>
              && r[newcomm] == Lookup(comms, newcomm).(localId := newcomm,
                                                       globalId := Lookup(comms, comm).globalId,
                                                       localGroupId := Lookup(comms, comm).localGroupId,
                                                       isRoot := Lookup(comms, comm).isRoot)
              && r[comm] == Lookup(comms, comm).(subComms := Lookup(comms, comm).subComms + [newcomm])
    ensures forall c :: c in comms && c != comm && c != newcomm ==> r[c] == comms[c]
  {
    var parent := Lookup(comms, comm);
    var withParent := comms[comm := parent];
    var dup := Lookup(withParent, newcomm).(localId := newcomm, globalId := parent.globalId,
                                             localGroupId := parent.localGroupId, isRoot := parent.isRoot);
    AddChild(withParent[newcomm := dup], comm, newcomm)
  }

  /** `mpi_comm_create_first_pass`: the new communicator becomes root on
      this rank when this rank is the first member of the group (it is never
      reset to false), and is appended to the parent's children. The source
      reads the group's first member unchecked, so the group must have one. */
  function CommCreateFirstPass(comms: CommTable, groups: Groups.GroupTable, worldRank: int,
                               comm: int, group: int, newcomm: int): (r: CommTable)
    requires |Groups.Lookup(groups, group).globalRanks| > 0
    ensures r.Keys == comms.Keys + {comm, newcomm}
    ensures comm != newcomm ==>
              && r[newcomm].isRoot == (worldRank == groups[group].globalRanks[0] || Lookup(comms, newcomm).isRoot)
              && r[newcomm] == Lookup(comms, newcomm).(isRoot := r[newcomm].isRoot)
              && r[comm] == Lookup(comms, comm).(subComms := Lookup(comms, comm).subComms + [newcomm])
    ensures forall c :: c in comms && c != comm && c != newcomm ==> r[c] == comms[c]
  {
    var withParent := comms[comm := Lookup(comms, comm)];
    var sub := Lookup(withParent, newcomm);
    var sub' := if worldRank == groups[group].globalRanks[0] then sub.(isRoot := true) else sub;
    AddChild(withParent[newcomm := sub'], comm, newcomm)
  }

  /** Two tables recording the same communicators, groups, ids and
      `sub_comms` links, differing at most in the root flags: what two
      ranks build when they replay the same creation calls. */
  ghost predicate SameUpToRoots(a: CommTable, b: CommTable)
  {
    && a.Keys == b.Keys
    && forall c :: c in a ==> a[c].(isRoot := b[c].isRoot) == b[c]
  }

  /** `comm_dup` replayed on two such tables keeps them related. */
  lemma CommDupKeepsSameUpToRoots(a: CommTable, b: CommTable, comm: int, newcomm: int)
    requires SameUpToRoots(a, b)
    ensures SameUpToRoots(CommDupFirstPass(a, comm, newcomm), CommDupFirstPass(b, comm, newcomm))
  {
    var ra := CommDupFirstPass(a, comm, newcomm);
    var rb := CommDupFirstPass(b, comm, newcomm);
    assert Lookup(a, comm).(isRoot := Lookup(b, comm).isRoot) == Lookup(b, comm);
    assert Lookup(a, newcomm).(isRoot := Lookup(b, newcomm).isRoot) == Lookup(b, newcomm);
    forall c | c in ra ensures ra[c].(isRoot := rb[c].isRoot) == rb[c] {
      if c != comm && c != newcomm {
        assert c in a;
      }
    }
  }

  /** `comm_create` replayed on two such tables keeps them related, even
      by two ranks that disagree on whether they lead the new group. */
  lemma CommCreateKeepsSameUpToRoots(a: CommTable, b: CommTable, groups: Groups.GroupTable,
                                     rankA: int, rankB: int, comm: int, group: int, newcomm: int)
    requires |Groups.Lookup(groups, group).globalRanks| > 0
    requires SameUpToRoots(a, b)
    ensures SameUpToRoots(CommCreateFirstPass(a, groups, rankA, comm, group, newcomm),
                          CommCreateFirstPass(b, groups, rankB, comm, group, newcomm))
  {
    var ra := CommCreateFirstPass(a, groups, rankA, comm, group, newcomm);
    var rb := CommCreateFirstPass(b, groups, rankB, comm, group, newcomm);
    assert Lookup(a, comm).(isRoot := Lookup(b, comm).isRoot) == Lookup(b, comm);
    assert Lookup(a, newcomm).(isRoot := Lookup(b, newcomm).isRoot) == Lookup(b, newcomm);
    forall c | c in ra ensures ra[c].(isRoot := rb[c].isRoot) == rb[c] {
      if c != comm && c != newcomm {
        assert c in a;
      }
    }
  }

  /** `mpi_comm_split_first_pass` is a documented TODO with no effect. */
  function CommSplitFirstPass(comms: CommTable, oldcomm: int, key: int, color: int, newcomm: int): CommTable
  {
    comms
  }

  // ---------------------------------------------------------------------
  // The communicator forest as a tree value

  /** One communicator of the forest with the parts the id passes read. */
  datatype Tree = Node(id: int, isRoot: bool, children: seq<Tree>)

  /** Every communicator of the forest `ts` is an entry of `comms`. */
  ghost predicate AllInTable(ts: seq<Tree>, comms: CommTable)
    decreases ts
  {
    forall i :: 0 <= i < |ts| ==> ts[i].id in comms && AllInTable(ts[i].children, comms)
  }

  /** A forest whose communicators are all in `a` stays so in any table
      with at least `a`'s entries. */
  lemma {:induction false} AllInTableWider(ts: seq<Tree>, a: CommTable, b: CommTable)
    requires AllInTable(ts, a) && a.Keys <= b.Keys
    ensures AllInTable(ts, b)
    decreases ts
  {
    forall i | 0 <= i < |ts| ensures ts[i].id in b && AllInTable(ts[i].children, b) {
      AllInTableWider(ts[i].children, a, b);
    }
  }

  /** The subtree `agree_global_ids` and `assign_global_ids` walk from `id`
      by following `sub_comms`. `avail` holds the ids not on the current
      path; meeting an id outside it means a cycle (or a dangling child),
      where the source would recurse without end: `None`. */
  function Unfold(comms: CommTable, id: int, avail: set<int>): (r: Option<Tree>)
    requires id in avail && id in comms
    ensures r.Some? ==> r.value.id == id && r.value.isRoot == comms[id].isRoot
    ensures r.Some? ==> |r.value.children| == |comms[id].subComms|
    ensures r.Some? ==> forall i :: 0 <= i < |r.value.children| ==> r.value.children[i].id == comms[id].subComms[i]
    ensures r.Some? ==> AllInTable(r.value.children, comms)
    decreases avail, 0
  {
    match UnfoldList(comms, comms[id].subComms, avail - {id})
    case None => None
    case Some(kids) => Some(Node(id, comms[id].isRoot, kids))
  }

  function UnfoldList(comms: CommTable, ids: seq<int>, avail: set<int>): (r: Option<seq<Tree>>)
    ensures r.Some? ==> |r.value| == |ids|
    ensures r.Some? ==> forall i :: 0 <= i < |ids| ==> r.value[i].id == ids[i]
    ensures r.Some? ==> AllInTable(r.value, comms)
    decreases avail, |ids| + 1
  {
    if |ids| == 0 then Some([])
    else if ids[0] !in avail || ids[0] !in comms then None
    else match Unfold(comms, ids[0], avail)
      case None => None
      case Some(t) =>
        match UnfoldList(comms, ids[1..], avail)
        case None => None
        case Some(ts) => Some([t] + ts)
  }

  /** The forest hanging off comm-world, whose entry is read through
      `Lookup` (an unregistered comm-world has no children). */
  function WorldForest(comms: CommTable): (r: Option<seq<Tree>>)
    ensures r.Some? ==> |r.value| == |Lookup(comms, CommWorldId).subComms|
    ensures r.Some? ==> AllInTable(r.value, comms)
  {
    UnfoldList(comms, Lookup(comms, CommWorldId).subComms, comms.Keys - {CommWorldId})
  }
}

=== FILE: events.dfy ===
/** The records the writer hands to the trace-archive library, kept as an
    abstract appended list. The archive encoding itself is not modelled, and
    a region is named by its call name rather than by an interned id. */
module Events {

  /** The collective kinds passed to the archive's collective-end record. */
  datatype CollectiveOp =
    | Barrier | Bcast | Gather | Gatherv | Scatter | Scatterv | Reduce | Scan
    | Allgather | Allgatherv | Alltoall | Alltoallv | Allreduce | ReduceScatter

  datatype Record =
    | Enter(time: int, region: string)
    | Leave(time: int, region: string)
    | Send(time: int, dest: int, comm: int, tag: int, bytes: int)
    | Recv(time: int, source: int, comm: int, tag: int, bytes: int)
    | Isend(time: int, dest: int, comm: int, tag: int, bytes: int, request: int)
    | IsendComplete(time: int, request: int)
    | IrecvRequest(time: int, request: int)
    | Irecv(time: int, source: int, comm: int, tag: int, bytes: int, request: int)
    | CollectiveBegin(time: int)
    | CollectiveEnd(time: int, op: CollectiveOp, comm: int, root: int, sent: int, received: int)
}

=== FILE: globalids.dfy ===
/** The two passes that give every communicator below comm-world a global
    id without any message between ranks. `agree_global_ids` walks the
    forest and calls `assign_current` on the id assigner wherever this rank
    is root; `assign_global_ids` walks it again and stores, for each
    communicator, the id the assigner reports for the current tree position.
    The assigner and the tree-position object are not part of this model:
    each pass is described by the sequence of calls it makes on them. */
module GlobalIds {
  import opened Comms

  /** Calls on `global_id_assigner` / `tree_id`: `add_level`, `advance`
      (`advance_sub_comm`), `remove_level`, `assign_current`, `get_id`. */
  datatype Op = AddLevel | Advance | RemoveLevel | AssignCurrent | GetId

  /** A store of `global_id` into communicator `comm`. */
  datatype Write = Write(comm: int, gid: int)

  // ---------------------------------------------------------------------
  // Forest shape and the shape-only call skeleton

  datatype Shape = ShapeNode(children: seq<Shape>)

  function ShapeOf(t: Tree): Shape
    decreases t, 1
  {
    ShapeNode(ShapesOf(t.children))
  }

  function ShapesOf(ts: seq<Tree>): (r: seq<Shape>)
    ensures |r| == |ts|
    decreases ts, 0
  {
    if |ts| == 0 then [] else [ShapeOf(ts[0])] + ShapesOf(ts[1..])
  }

  /** The calls that move through the forest, for a forest of shape `ss`. */
  function SkelList(ss: seq<Shape>): seq<Op>
    decreases ss, 1
  {
    [AddLevel] + SkelSubs(ss) + [RemoveLevel]
  }

  function SkelSubs(ss: seq<Shape>): seq<Op>
    decreases ss, 0
  {
    if |ss| == 0 then [] else [Advance] + SkelNode(ss[0]) + SkelSubs(ss[1..])
  }

  function SkelNode(s: Shape): seq<Op>
    decreases s, 2
  {
    if |s.children| == 0 then [] else SkelList(s.children)
  }

  /** The calls left after dropping the ones that do not move through the
      forest (`assign_current`, `get_id`). */
  function Moves(ops: seq<Op>): (r: seq<Op>)
  {
    if |ops| == 0 then []
    else (if ops[0] == AssignCurrent || ops[0] == GetId then [] else [ops[0]]) + Moves(ops[1..])
  }

  lemma {:induction false} MovesAppend(a: seq<Op>, b: seq<Op>)
    ensures Moves(a + b) == Moves(a) + Moves(b)
    decreases |a|
  {
    if |a| == 0 {
      assert a + b == b;
    } else {
      assert (a + b)[0] == a[0];
      assert (a + b)[1..] == a[1..] + b;
      MovesAppend(a[1..], b);
    }
  }

  /** Number of `assign_current` calls in a call sequence. */
  function AssignCount(ops: seq<Op>): nat
  {
    if |ops| == 0 then 0 else (if ops[0] == AssignCurrent then 1 else 0) + AssignCount(ops[1..])
  }

  lemma {:induction false} AssignCountAppend(a: seq<Op>, b: seq<Op>)
    ensures AssignCount(a + b) == AssignCount(a) + AssignCount(b)
    decreases |a|
  {
    if |a| == 0 {
      assert a + b == b;
    } else {
      assert (a + b)[0] == a[0];
      assert (a + b)[1..] == a[1..] + b;
      AssignCountAppend(a[1..], b);
    }
  }

  // ---------------------------------------------------------------------
  // Pre-order of the forest

  function PreOrder(t: Tree): (r: seq<Tree>)
    ensures |r| > 0 && r[0] == t
    decreases t, 1
  {
    [t] + PreOrderList(t.children)
  }

  function PreOrderList(ts: seq<Tree>): seq<Tree>
    decreases ts, 0
  {
    if |ts| == 0 then [] else PreOrder(ts[0]) + PreOrderList(ts[1..])
  }

  /** Number of communicators in `vs` on which this rank is root. */
  function RootCount(vs: seq<Tree>): nat
  {
    if |vs| == 0 then 0 else (if vs[0].isRoot then 1 else 0) + RootCount(vs[1..])
  }

  lemma {:induction false} RootCountAppend(a: seq<Tree>, b: seq<Tree>)
    ensures RootCount(a + b) == RootCount(a) + RootCount(b)
    decreases |a|
  {
    if |a| == 0 {
      assert a + b == b;
    } else {
      assert (a + b)[0] == a[0];
      assert (a + b)[1..] == a[1..] + b;
      RootCountAppend(a[1..], b);
    }
  }

  // ---------------------------------------------------------------------
  // agree_global_ids

  /** The comm overload: `assign_current` when root, then the children. */
  function AgreeComm(t: Tree): seq<Op>
    decreases t, 2
  {
    (if t.isRoot then [AssignCurrent] else [])
    + (if |t.children| == 0 then [] else AgreeList(t.children))
  }

  /** The list overload: a level around the children, one advance each. */
  function AgreeList(ts: seq<Tree>): seq<Op>
    decreases ts, 1
  {
    [AddLevel] + AgreeSubs(ts) + [RemoveLevel]
  }

  function AgreeSubs(ts: seq<Tree>): seq<Op>
    decreases ts, 0
  {
    if |ts| == 0 then [] else [Advance] + AgreeComm(ts[0]) + AgreeSubs(ts[1..])
  }

  /** The top-level `agree_global_ids`: the list overload on comm-world's
      children (a level is opened even when there are none). It moves
      through the forest by its shape alone and claims one id per
      communicator this rank is root of. */
  function AgreeGlobalIds(world: seq<Tree>): (r: seq<Op>)
    ensures Moves(r) == SkelList(ShapesOf(world))
    ensures AssignCount(r) == RootCount(PreOrderList(world))
  {
    AgreeMovesList(world);
    AgreeCountList(world);
    AgreeList(world)
  }

  // ---------------------------------------------------------------------
  // assign_global_ids

  /** The comm overload. `hist` is the sequence of calls made so far on the
      local `tree_id`; `getId` stands for `global_ids.get_id`, whose answer
      can depend only on that history. */
  function AssignComm(t: Tree, hist: seq<Op>, getId: seq<Op> -> int): (r: (seq<Op>, seq<Write>))
    decreases t, 2
  {
    var w := Write(t.id, getId(hist));
    if |t.children| == 0 then ([GetId], [w])
    else
      var (ops, ws) := AssignList(t.children, hist, getId);
      ([GetId] + ops, [w] + ws)
  }

  function AssignList(ts: seq<Tree>, hist: seq<Op>, getId: seq<Op> -> int): (r: (seq<Op>, seq<Write>))
    decreases ts, 1
  {
    var (ops, ws) := AssignSubs(ts, hist + [AddLevel], getId);
    ([AddLevel] + ops + [RemoveLevel], ws)
  }

  function AssignSubs(ts: seq<Tree>, hist: seq<Op>, getId: seq<Op> -> int): (r: (seq<Op>, seq<Write>))
    decreases ts, 0
  {
    if |ts| == 0 then ([], [])
    else
      var (ops1, ws1) := AssignComm(ts[0], hist + [Advance], getId);
      var (ops2, ws2) := AssignSubs(ts[1..], hist + [Advance] + Moves(ops1), getId);
      ([Advance] + ops1 + ops2, ws1 + ws2)
  }

  /** The top-level `assign_global_ids`, starting from a fresh `tree_id`.
      It makes the same moves as `agree_global_ids`, writes every
      communicator of the forest once, in pre-order, and the id it writes
      for the i-th is the assigner's answer at the tree position of the
      i-th `get_id` call. */
  function AssignGlobalIds(world: seq<Tree>, getId: seq<Op> -> int): (r: (seq<Op>, seq<Write>))
    ensures Moves(r.0) == SkelList(ShapesOf(world))
    ensures |r.1| == |PreOrderList(world)|
    ensures forall i :: 0 <= i < |r.1| ==> r.1[i].comm == PreOrderList(world)[i].id
    ensures |HistoriesAt(r.0, GetId, [])| == |r.1|
    ensures forall i :: 0 <= i < |r.1| ==> r.1[i].gid == getId(HistoriesAt(r.0, GetId, [])[i])
  {
    AssignMovesList(world, [], getId);
    AssignVisitsList(world, [], getId);
    AssignAsksList(world, [], getId);
    var r := AssignList(world, [], getId);
    assert forall i :: 0 <= i < |r.1| ==> Gids(r.1)[i] == r.1[i].gid;
    r
  }

  /** The global ids written, in order. */
  function Gids(ws: seq<Write>): (r: seq<int>)
    ensures |r| == |ws|
  {
    seq(|ws|, i requires 0 <= i < |ws| => ws[i].gid)
  }

  lemma GidsAppend(a: seq<Write>, b: seq<Write>)
    ensures Gids(a + b) == Gids(a) + Gids(b)
  {
  }

  // ---------------------------------------------------------------------
  // Both passes move through the forest by its shape alone

  lemma {:induction false} AgreeMovesComm(t: Tree)
    ensures Moves(AgreeComm(t)) == SkelNode(ShapeOf(t))
    decreases t, 2
  {
    var pre := if t.isRoot then [AssignCurrent] else [];
    var post := if |t.children| == 0 then [] else AgreeList(t.children);
    MovesAppend(pre, post);
    assert Moves(pre) == [] by {
      if t.isRoot { assert Moves(pre) == [] + Moves([]); }
    }
    if |t.children| > 0 {
      AgreeMovesList(t.children);
    }
  }

  lemma {:induction false} AgreeMovesList(ts: seq<Tree>)
    ensures Moves(AgreeList(ts)) == SkelList(ShapesOf(ts))
    decreases ts, 1
  {
    MovesAppend([AddLevel] + AgreeSubs(ts), [RemoveLevel]);
    MovesAppend([AddLevel], AgreeSubs(ts));
    AgreeMovesSubs(ts);
  }

  lemma {:induction false} AgreeMovesSubs(ts: seq<Tree>)
    ensures Moves(AgreeSubs(ts)) == SkelSubs(ShapesOf(ts))
    decreases ts, 0
  {
    if |ts| > 0 {
      MovesAppend([Advance] + AgreeComm(ts[0]), AgreeSubs(ts[1..]));
      MovesAppend([Advance], AgreeComm(ts[0]));
      AgreeMovesComm(ts[0]);
      AgreeMovesSubs(ts[1..]);
      assert ShapesOf(ts)[0] == ShapeOf(ts[0]) && ShapesOf(ts)[1..] == ShapesOf(ts[1..]);
    }
  }

  lemma {:induction false} AssignMovesComm(t: Tree, hist: seq<Op>, getId: seq<Op> -> int)
    ensures Moves(AssignComm(t, hist, getId).0) == SkelNode(ShapeOf(t))
    decreases t, 2
  {
    if |t.children| > 0 {
      var ops := AssignList(t.children, hist, getId).0;
      MovesAppend([GetId], ops);
      assert Moves([GetId]) == [] + Moves([]);
      AssignMovesList(t.children, hist, getId);
    } else {
      assert Moves([GetId]) == [] + Moves([]);
    }
  }

  lemma {:induction false} AssignMovesList(ts: seq<Tree>, hist: seq<Op>, getId: seq<Op> -> int)
    ensures Moves(AssignList(ts, hist, getId).0) == SkelList(ShapesOf(ts))
    decreases ts, 1
  {
    var ops := AssignSubs(ts, hist + [AddLevel], getId).0;
    MovesAppend([AddLevel] + ops, [RemoveLevel]);
    MovesAppend([AddLevel], ops);
    AssignMovesSubs(ts, hist + [AddLevel], getId);
  }

  lemma {:induction false} AssignMovesSubs(ts: seq<Tree>, hist: seq<Op>, getId: seq<Op> -> int)
    ensures Moves(AssignSubs(ts, hist, getId).0) == SkelSubs(ShapesOf(ts))
    decreases ts, 0
  {
    if |ts| > 0 {
      var ops1 := AssignComm(ts[0], hist + [Advance], getId).0;
      var ops2 := AssignSubs(ts[1..], hist + [Advance] + Moves(ops1), getId).0;
      MovesAppend([Advance] + ops1, ops2);
      MovesAppend([Advance], ops1);
      AssignMovesComm(ts[0], hist + [Advance], getId);
      AssignMovesSubs(ts[1..], hist + [Advance] + Moves(ops1), getId);
      assert ShapesOf(ts)[0] == ShapeOf(ts[0]) && ShapesOf(ts)[1..] == ShapesOf(ts[1..]);
    }
  }

  // ---------------------------------------------------------------------
  // agree calls assign_current once per communicator this rank is root of

  lemma {:induction false} AgreeCountComm(t: Tree)
    ensures AssignCount(AgreeComm(t)) == RootCount(PreOrder(t))
    decreases t, 2
  {
    var pre := if t.isRoot then [AssignCurrent] else [];
    var post := if |t.children| == 0 then [] else AgreeList(t.children);
    AssignCountAppend(pre, post);
    assert AssignCount(pre) == (if t.isRoot then 1 else 0) by {
      if t.isRoot { assert pre[1..] == []; }
    }
    assert PreOrder(t)[1..] == PreOrderList(t.children);
    if |t.children| > 0 {
      AgreeCountList(t.children);
    } else {
      assert PreOrderList(t.children) == [];
    }
  }

  lemma {:induction false} AgreeCountList(ts: seq<Tree>)
    ensures AssignCount(AgreeList(ts)) == RootCount(PreOrderList(ts))
    decreases ts, 1
  {
    AssignCountAppend([AddLevel] + AgreeSubs(ts), [RemoveLevel]);
    AssignCountAppend([AddLevel], AgreeSubs(ts));
    AgreeCountSubs(ts);
  }

  lemma {:induction false} AgreeCountSubs(ts: seq<Tree>)
    ensures AssignCount(AgreeSubs(ts)) == RootCount(PreOrderList(ts))
    decreases ts, 0
  {
    if |ts| > 0 {
      AssignCountAppend([Advance] + AgreeComm(ts[0]), AgreeSubs(ts[1..]));
      AssignCountAppend([Advance], AgreeComm(ts[0]));
      AgreeCountComm(ts[0]);
      AgreeCountSubs(ts[1..]);
      RootCountAppend(PreOrder(ts[0]), PreOrderList(ts[1..]));
    }
  }

  // ---------------------------------------------------------------------
  // assign writes every communicator once, in pre-order

  lemma {:induction false} AssignVisitsComm(t: Tree, hist: seq<Op>, getId: seq<Op> -> int)
    ensures var ws := AssignComm(t, hist, getId).1;
            |ws| == |PreOrder(t)| && forall i :: 0 <= i < |ws| ==> ws[i].comm == PreOrder(t)[i].id
    decreases t, 2
  {
    if |t.children| > 0 {
      AssignVisitsList(t.children, hist, getId);
    }
  }

  lemma {:induction false} AssignVisitsList(ts: seq<Tree>, hist: seq<Op>, getId: seq<Op> -> int)
    ensures var ws := AssignList(ts, hist, getId).1;
            |ws| == |PreOrderList(ts)| && forall i :: 0 <= i < |ws| ==> ws[i].comm == PreOrderList(ts)[i].id
    decreases ts, 1
  {
    AssignVisitsSubs(ts, hist + [AddLevel], getId);
  }

  lemma {:induction false} AssignVisitsSubs(ts: seq<Tree>, hist: seq<Op>, getId: seq<Op> -> int)
    ensures var ws := AssignSubs(ts, hist, getId).1;
            |ws| == |PreOrderList(ts)| && forall i :: 0 <= i < |ws| ==> ws[i].comm == PreOrderList(ts)[i].id
    decreases ts, 0
  {
    if |ts| > 0 {
      var ops1 := AssignComm(ts[0], hist + [Advance], getId).0;
      AssignVisitsComm(ts[0], hist + [Advance], getId);
      AssignVisitsSubs(ts[1..], hist + [Advance] + Moves(ops1), getId);
    }
  }

  // ---------------------------------------------------------------------
  // Where each pass calls the assigner

  /** The tree position before each occurrence of `x` in `ops`, in order:
      the moves `base` made earlier followed by the moves of `ops` up to
      that occurrence. */
  function HistoriesAt(ops: seq<Op>, x: Op, base: seq<Op>): seq<seq<Op>>
  {
    if |ops| == 0 then []
    else (if ops[0] == x then [base] else []) + HistoriesAt(ops[1..], x, base + Moves(ops[..1]))
  }

  lemma {:induction false} HistoriesAppend(a: seq<Op>, b: seq<Op>, x: Op, base: seq<Op>)
    ensures HistoriesAt(a + b, x, base) == HistoriesAt(a, x, base) + HistoriesAt(b, x, base + Moves(a))
    decreases |a|
  {
    if |a| == 0 {
      assert a + b == b && base + Moves(a) == base;
    } else {
      var base' := base + Moves(a[..1]);
      assert (a + b)[1..] == a[1..] + b && (a + b)[..1] == a[..1];
      HistoriesAppend(a[1..], b, x, base');
      MovesStep(a, base);
    }
  }

  lemma MovesStep(a: seq<Op>, base: seq<Op>)
    requires |a| > 0
    ensures base + Moves(a[..1]) + Moves(a[1..]) == base + Moves(a)
  {
    var m1, m2 := Moves(a[..1]), Moves(a[1..]);
    MovesAppend(a[..1], a[1..]);
    assert a[..1] + a[1..] == a;
    assert Moves(a) == m1 + m2;
    assert base + m1 + m2 == base + (m1 + m2);
  }

  /** A level opened around `mid`: positions inside are one level deeper. */
  lemma HistoriesLevel(mid: seq<Op>, x: Op, hist: seq<Op>)
    requires x == GetId || x == AssignCurrent
    ensures HistoriesAt([AddLevel] + mid + [RemoveLevel], x, hist) == HistoriesAt(mid, x, hist + [AddLevel])
  {
    HistoriesAppend([AddLevel] + mid, [RemoveLevel], x, hist);
    HistoriesAppend([AddLevel], mid, x, hist);
    HistoriesOne(AddLevel, x, hist);
    HistoriesOne(RemoveLevel, x, hist + Moves([AddLevel] + mid));
  }

  /** An advance followed by `m1` and `m2`: `m2` starts where `m1` left. */
  lemma HistoriesAdvance(m1: seq<Op>, m2: seq<Op>, x: Op, hist: seq<Op>)
    requires x == GetId || x == AssignCurrent
    ensures HistoriesAt([Advance] + m1 + m2, x, hist)
         == HistoriesAt(m1, x, hist + [Advance]) + HistoriesAt(m2, x, hist + [Advance] + Moves(m1))
  {
    HistoriesAppend([Advance] + m1, m2, x, hist);
    HistoriesAppend([Advance], m1, x, hist);
    HistoriesOne(Advance, x, hist);
    MovesAppend([Advance], m1);
    assert hist + ([Advance] + Moves(m1)) == hist + [Advance] + Moves(m1);
  }

  /** A single call: its own position if it is an `x`, and no move unless
      it is one of the three moving calls. */
  lemma HistoriesOne(y: Op, x: Op, base: seq<Op>)
    ensures HistoriesAt([y], x, base) == if y == x then [base] else []
    ensures Moves([y]) == if y == AssignCurrent || y == GetId then [] else [y]
  {
    assert [y][1..] == [] && [y][..1] == [y];
  }

  /** The assigner's answers at the given positions. */
  function Answers(getId: seq<Op> -> int, hs: seq<seq<Op>>): (r: seq<int>)
    ensures |r| == |hs|
  {
    seq(|hs|, i requires 0 <= i < |hs| => getId(hs[i]))
  }

  lemma AnswersAppend(getId: seq<Op> -> int, a: seq<seq<Op>>, b: seq<seq<Op>>)
    ensures Answers(getId, a + b) == Answers(getId, a) + Answers(getId, b)
  {
  }

  /** The positions, among `hs`, of the communicators in `vs` (matched by
      place) on which this rank is root. */
  function RootsOnly(hs: seq<seq<Op>>, vs: seq<Tree>): seq<seq<Op>>
  {
    if |hs| == 0 || |vs| == 0 then []
    else (if vs[0].isRoot then [hs[0]] else []) + RootsOnly(hs[1..], vs[1..])
  }

  lemma {:induction false} RootsOnlyAppend(ha: seq<seq<Op>>, va: seq<Tree>, hb: seq<seq<Op>>, vb: seq<Tree>)
    requires |ha| == |va|
    ensures RootsOnly(ha + hb, va + vb) == RootsOnly(ha, va) + RootsOnly(hb, vb)
    decreases |ha|
  {
    if |ha| == 0 {
      assert ha + hb == hb && va + vb == vb;
    } else {
      assert (ha + hb)[0] == ha[0] && (ha + hb)[1..] == ha[1..] + hb;
      assert (va + vb)[0] == va[0] && (va + vb)[1..] == va[1..] + vb;
      RootsOnlyAppend(ha[1..], va[1..], hb, vb);
    }
  }

  lemma {:induction false} AssignAsksComm(t: Tree, hist: seq<Op>, getId: seq<Op> -> int)
    ensures Gids(AssignComm(t, hist, getId).1) == Answers(getId, HistoriesAt(AssignComm(t, hist, getId).0, GetId, hist))
    decreases t, 2
  {
    HistoriesOne(GetId, GetId, hist);
    if |t.children| > 0 {
      var (ops, ws) := AssignList(t.children, hist, getId);
      AssignAsksList(t.children, hist, getId);
      HistoriesAppend([GetId], ops, GetId, hist);
      assert hist + Moves([GetId]) == hist;
      GidsAppend([Write(t.id, getId(hist))], ws);
      AnswersAppend(getId, [hist], HistoriesAt(ops, GetId, hist));
    }
  }

  lemma {:induction false} AssignAsksList(ts: seq<Tree>, hist: seq<Op>, getId: seq<Op> -> int)
    ensures Gids(AssignList(ts, hist, getId).1) == Answers(getId, HistoriesAt(AssignList(ts, hist, getId).0, GetId, hist))
    decreases ts, 1
  {
    var ops := AssignSubs(ts, hist + [AddLevel], getId).0;
    AssignAsksSubs(ts, hist + [AddLevel], getId);
    HistoriesLevel(ops, GetId, hist);
  }

  lemma {:induction false} AssignAsksSubs(ts: seq<Tree>, hist: seq<Op>, getId: seq<Op> -> int)
    ensures Gids(AssignSubs(ts, hist, getId).1) == Answers(getId, HistoriesAt(AssignSubs(ts, hist, getId).0, GetId, hist))
    decreases ts, 0
  {
    if |ts| > 0 {
      var (ops1, ws1) := AssignComm(ts[0], hist + [Advance], getId);
      var (ops2, ws2) := AssignSubs(ts[1..], hist + [Advance] + Moves(ops1), getId);
      AssignAsksComm(ts[0], hist + [Advance], getId);
      AssignAsksSubs(ts[1..], hist + [Advance] + Moves(ops1), getId);
      HistoriesAdvance(ops1, ops2, GetId, hist);
      GidsAppend(ws1, ws2);
      AnswersAppend(getId, HistoriesAt(ops1, GetId, hist + [Advance]),
                    HistoriesAt(ops2, GetId, hist + [Advance] + Moves(ops1)));
    }
  }

  /** One `get_id` per communicator of the subtree, in pre-order. */
  lemma AssignAsksOncePerComm(t: Tree, hist: seq<Op>, getId: seq<Op> -> int)
    ensures |HistoriesAt(AssignComm(t, hist, getId).0, GetId, hist)| == |PreOrder(t)|
  {
    AssignAsksComm(t, hist, getId);
    AssignVisitsComm(t, hist, getId);
  }


  lemma {:induction false} AgreeAtComm(t: Tree, hist: seq<Op>, getId: seq<Op> -> int)
    ensures HistoriesAt(AgreeComm(t), AssignCurrent, hist)
         == RootsOnly(HistoriesAt(AssignComm(t, hist, getId).0, GetId, hist), PreOrder(t))
    decreases t, 2
  {
    var pre: seq<Op> := if t.isRoot then [AssignCurrent] else [];
    var post := if |t.children| == 0 then [] else AgreeList(t.children);
    HistoriesAppend(pre, post, AssignCurrent, hist);
    HistoriesOne(AssignCurrent, AssignCurrent, hist);
    assert Moves(pre) == [] && HistoriesAt(pre, AssignCurrent, hist) == (if t.isRoot then [hist] else []);
    HistoriesOne(GetId, GetId, hist);
    if |t.children| > 0 {
      var ops := AssignList(t.children, hist, getId).0;
      AgreeAtList(t.children, hist, getId);
      HistoriesAppend([GetId], ops, GetId, hist);
      assert hist + Moves([GetId]) == hist;
      var hl := HistoriesAt(ops, GetId, hist);
      assert ([hist] + hl)[1..] == hl;
      assert ([t] + PreOrderList(t.children))[1..] == PreOrderList(t.children);
    } else {
      assert PreOrderList(t.children) == [];
    }
  }

  lemma {:induction false} AgreeAtList(ts: seq<Tree>, hist: seq<Op>, getId: seq<Op> -> int)
    ensures HistoriesAt(AgreeList(ts), AssignCurrent, hist)
         == RootsOnly(HistoriesAt(AssignList(ts, hist, getId).0, GetId, hist), PreOrderList(ts))
    decreases ts, 1
  {
    var ops := AssignSubs(ts, hist + [AddLevel], getId).0;
    AgreeAtSubs(ts, hist + [AddLevel], getId);
    HistoriesLevel(ops, GetId, hist);
    HistoriesLevel(AgreeSubs(ts), AssignCurrent, hist);
    assert AssignList(ts, hist, getId).0 == [AddLevel] + ops + [RemoveLevel];
  }

  lemma {:induction false} AgreeAtSubs(ts: seq<Tree>, hist: seq<Op>, getId: seq<Op> -> int)
    ensures HistoriesAt(AgreeSubs(ts), AssignCurrent, hist)
         == RootsOnly(HistoriesAt(AssignSubs(ts, hist, getId).0, GetId, hist), PreOrderList(ts))
    decreases ts, 0
  {
    if |ts| > 0 {
      var ops1 := AssignComm(ts[0], hist + [Advance], getId).0;
      var ops2 := AssignSubs(ts[1..], hist + [Advance] + Moves(ops1), getId).0;
      var ag1 := AgreeComm(ts[0]);
      var ag2 := AgreeSubs(ts[1..]);
      AgreeMovesComm(ts[0]);
      AssignMovesComm(ts[0], hist + [Advance], getId);
      assert Moves(ag1) == Moves(ops1);
      AgreeAtComm(ts[0], hist + [Advance], getId);
      AgreeAtSubs(ts[1..], hist + [Advance] + Moves(ops1), getId);
      HistoriesAdvance(ops1, ops2, GetId, hist);
      HistoriesAdvance(ag1, ag2, AssignCurrent, hist);
      assert AssignSubs(ts, hist, getId).0 == [Advance] + ops1 + ops2;
      AssignAsksOncePerComm(ts[0], hist + [Advance], getId);
      RootsOnlyAppend(HistoriesAt(ops1, GetId, hist + [Advance]), PreOrder(ts[0]),
                      HistoriesAt(ops2, GetId, hist + [Advance] + Moves(ops1)), PreOrderList(ts[1..]));
    }
  }

  /** `agree_global_ids` calls `assign_current` exactly at the tree
      positions where `assign_global_ids` asks for the id of a communicator
      this rank is root of, in the same order, and at no other position:
      the id this rank claims for a communicator it leads is the one it
      later reads back for that communicator. */
  lemma AgreeClaimsRoots(world: seq<Tree>)
    ensures forall getId: seq<Op> -> int ::
              HistoriesAt(AgreeGlobalIds(world), AssignCurrent, [])
              == RootsOnly(HistoriesAt(AssignGlobalIds(world, getId).0, GetId, []), PreOrderList(world))
  {
    forall getId: seq<Op> -> int
      ensures HistoriesAt(AgreeGlobalIds(world), AssignCurrent, [])
              == RootsOnly(HistoriesAt(AssignGlobalIds(world, getId).0, GetId, []), PreOrderList(world))
    {
      AgreeAtList(world, [], getId);
    }
  }

  // ---------------------------------------------------------------------
  // Ranks that built forests of the same shape store the same ids

  lemma {:induction false} SameShapeComm(t1: Tree, t2: Tree, hist: seq<Op>, getId: seq<Op> -> int)
    requires ShapeOf(t1) == ShapeOf(t2)
    ensures AssignComm(t1, hist, getId).0 == AssignComm(t2, hist, getId).0
    ensures Gids(AssignComm(t1, hist, getId).1) == Gids(AssignComm(t2, hist, getId).1)
    decreases t1, 2
  {
    assert ShapesOf(t1.children) == ShapesOf(t2.children);
    var w1 := Write(t1.id, getId(hist));
    var w2 := Write(t2.id, getId(hist));
    assert Gids([w1]) == Gids([w2]);
    if |t1.children| > 0 {
      SameShapeList(t1.children, t2.children, hist, getId);
      GidsAppend([w1], AssignList(t1.children, hist, getId).1);
      GidsAppend([w2], AssignList(t2.children, hist, getId).1);
    }
  }

  lemma {:induction false} SameShapeList(ts1: seq<Tree>, ts2: seq<Tree>, hist: seq<Op>, getId: seq<Op> -> int)
    requires ShapesOf(ts1) == ShapesOf(ts2)
    ensures AssignList(ts1, hist, getId).0 == AssignList(ts2, hist, getId).0
    ensures Gids(AssignList(ts1, hist, getId).1) == Gids(AssignList(ts2, hist, getId).1)
    decreases ts1, 1
  {
    SameShapeSubs(ts1, ts2, hist + [AddLevel], getId);
  }

  lemma {:induction false} SameShapeSubs(ts1: seq<Tree>, ts2: seq<Tree>, hist: seq<Op>, getId: seq<Op> -> int)
    requires ShapesOf(ts1) == ShapesOf(ts2)
    ensures AssignSubs(ts1, hist, getId).0 == AssignSubs(ts2, hist, getId).0
    ensures Gids(AssignSubs(ts1, hist, getId).1) == Gids(AssignSubs(ts2, hist, getId).1)
    decreases ts1, 0
  {
    if |ts1| > 0 {
      assert ShapeOf(ts1[0]) == ShapesOf(ts1)[0] == ShapesOf(ts2)[0] == ShapeOf(ts2[0]);
      assert ShapesOf(ts1[1..]) == ShapesOf(ts1)[1..] == ShapesOf(ts2)[1..] == ShapesOf(ts2[1..]);
      var (ops1, ws1) := AssignComm(ts1[0], hist + [Advance], getId);
      var (ops2, ws2) := AssignComm(ts2[0], hist + [Advance], getId);
      SameShapeComm(ts1[0], ts2[0], hist + [Advance], getId);
      SameShapeSubs(ts1[1..], ts2[1..], hist + [Advance] + Moves(ops1), getId);
      var (rest1, wr1) := AssignSubs(ts1[1..], hist + [Advance] + Moves(ops1), getId);
      var (rest2, wr2) := AssignSubs(ts2[1..], hist + [Advance] + Moves(ops2), getId);
      GidsAppend(ws1, wr1);
      GidsAppend(ws2, wr2);
    }
  }

  /** Two ranks whose forests have the same shape, whatever their root
      flags, make the same calls in `assign_global_ids` and store the same
      sequence of global ids, so the communicators at one structural
      position get one id on every rank. */
  lemma AssignDependsOnlyOnShape(world1: seq<Tree>, world2: seq<Tree>, getId: seq<Op> -> int)
    requires ShapesOf(world1) == ShapesOf(world2)
    ensures AssignGlobalIds(world1, getId).0 == AssignGlobalIds(world2, getId).0
    ensures Gids(AssignGlobalIds(world1, getId).1) == Gids(AssignGlobalIds(world2, getId).1)
  {
    SameShapeList(world1, world2, [], getId);
  }

  /** Unfolding one communicator out of two tables that differ only in
      root flags succeeds on both or on neither, with trees of one shape. */
  lemma {:induction false} UnfoldSameShape(a: CommTable, b: CommTable, id: int, avail: set<int>)
    requires SameUpToRoots(a, b)
    requires id in avail && id in a
    ensures Unfold(a, id, avail).Some? <==> Unfold(b, id, avail).Some?
    ensures Unfold(a, id, avail).Some? ==> ShapeOf(Unfold(a, id, avail).value) == ShapeOf(Unfold(b, id, avail).value)
    decreases avail, 0
  {
    assert a[id].subComms == b[id].subComms;
    UnfoldListSameShape(a, b, a[id].subComms, avail - {id});
  }

  lemma {:induction false} UnfoldListSameShape(a: CommTable, b: CommTable, ids: seq<int>, avail: set<int>)
    requires SameUpToRoots(a, b)
    ensures UnfoldList(a, ids, avail).Some? <==> UnfoldList(b, ids, avail).Some?
    ensures UnfoldList(a, ids, avail).Some? ==>
              ShapesOf(UnfoldList(a, ids, avail).value) == ShapesOf(UnfoldList(b, ids, avail).value)
    decreases avail, |ids| + 1
  {
    if |ids| > 0 && ids[0] in avail && ids[0] in a {
      UnfoldSameShape(a, b, ids[0], avail);
      UnfoldListSameShape(a, b, ids[1..], avail);
      var ra, rb := UnfoldList(a, ids, avail), UnfoldList(b, ids, avail);
      if ra.Some? {
        var t1, t2 := Unfold(a, ids[0], avail).value, Unfold(b, ids[0], avail).value;
        var ts1, ts2 := UnfoldList(a, ids[1..], avail).value, UnfoldList(b, ids[1..], avail).value;
        assert ra.value == [t1] + ts1 && rb.value == [t2] + ts2;
        assert ([t1] + ts1)[0] == t1 && ([t1] + ts1)[1..] == ts1;
        assert ([t2] + ts2)[0] == t2 && ([t2] + ts2)[1..] == ts2;
      }
    }
  }

  /** Two ranks whose tables differ only in root flags (as replaying the
      same `comm_dup`/`comm_create` calls leaves them) both find the forest
      under comm-world or both find a cycle, and their forests have one
      shape. */
  lemma WorldForestSameShape(a: CommTable, b: CommTable)
    requires SameUpToRoots(a, b)
    ensures WorldForest(a).Some? <==> WorldForest(b).Some?
    ensures WorldForest(a).Some? ==> ShapesOf(WorldForest(a).value) == ShapesOf(WorldForest(b).value)
  {
    assert Lookup(a, CommWorldId).subComms == Lookup(b, CommWorldId).subComms by {
      if CommWorldId in a {
        assert a[CommWorldId].(isRoot := b[CommWorldId].isRoot) == b[CommWorldId];
      }
    }
    UnfoldListSameShape(a, b, Lookup(a, CommWorldId).subComms, a.Keys - {CommWorldId});
  }

  /** Hence such ranks store the same global ids, communicator by
      communicator in pre-order, whatever the assigner answers. */
  lemma RanksAgreeOnIds(a: CommTable, b: CommTable, getId: seq<Op> -> int)
    requires SameUpToRoots(a, b)
    requires WorldForest(a).Some?
    ensures WorldForest(b).Some?
    ensures Gids(AssignGlobalIds(WorldForest(a).value, getId).1) == Gids(AssignGlobalIds(WorldForest(b).value, getId).1)
  {
    WorldForestSameShape(a, b);
    AssignDependsOnlyOnShape(WorldForest(a).value, WorldForest(b).value, getId);
  }

  // ---------------------------------------------------------------------
  // Storing the assigned ids into the communicator table

  /** Every communicator the traversal reaches from a forest unfolded out of
      `comms` is an entry of `comms`. */
  lemma {:induction false} PreOrderInTable(t: Tree, comms: CommTable)
    requires t.id in comms && AllInTable(t.children, comms)
    ensures forall v :: v in PreOrder(t) ==> v.id in comms
    decreases t, 1
  {
    PreOrderListInTable(t.children, comms);
  }

  lemma {:induction false} PreOrderListInTable(ts: seq<Tree>, comms: CommTable)
    requires AllInTable(ts, comms)
    ensures forall v :: v in PreOrderList(ts) ==> v.id in comms
    decreases ts, 0
  {
    if |ts| > 0 {
      PreOrderInTable(ts[0], comms);
      assert AllInTable(ts[1..], comms) by {
        forall i | 0 <= i < |ts[1..]|
          ensures ts[1..][i].id in comms && AllInTable(ts[1..][i].children, comms)
        {
          assert ts[1..][i] == ts[i + 1];
        }
      }
      PreOrderListInTable(ts[1..], comms);
    }
  }

  /** The global id the last write for `c` stores, or `current` if none does. */
  function LastGid(ws: seq<Write>, c: int, current: int): (g: int)
    ensures (forall j :: 0 <= j < |ws| ==> ws[j].comm != c) ==> g == current
    ensures (exists j :: 0 <= j < |ws| && ws[j].comm == c) ==>
              exists j :: 0 <= j < |ws| && ws[j].comm == c && g == ws[j].gid &&
                (forall k :: j < k < |ws| ==> ws[k].comm != c)
  {
    if |ws| == 0 then current
    else if ws[|ws| - 1].comm == c then ws[|ws| - 1].gid
    else
      var g := LastGid(ws[..|ws| - 1], c, current);
      assert forall j :: 0 <= j < |ws| - 1 ==> ws[..|ws| - 1][j] == ws[j];
      g
  }

  /** `comm->global_id = ...` for each write in order: only the global ids
      change, and each communicator keeps the id of its last write. */
  function StoreIds(comms: CommTable, ws: seq<Write>): (r: CommTable)
    requires forall j :: 0 <= j < |ws| ==> ws[j].comm in comms
    ensures r.Keys == comms.Keys
    ensures forall c :: c in comms ==> r[c] == comms[c].(globalId := r[c].globalId)
    ensures forall c :: c in comms ==> r[c].globalId == LastGid(ws, c, comms[c].globalId)
  {
    if |ws| == 0 then comms
    else
      var w := ws[|ws| - 1];
      var before := StoreIds(comms, ws[..|ws| - 1]);
      before[w.comm := before[w.comm].(globalId := w.gid)]
  }

  /** After storing `ws`: the table has the same entries, only global ids
      differ, and each communicator of the forest holds one of the ids
      written for it. */
  ghost predicate StoredEvery(before: CommTable, after: CommTable, forest: seq<Tree>, ws: seq<Write>)
  {
    && after.Keys == before.Keys
    && (forall c :: c in before ==> after[c] == before[c].(globalId := after[c].globalId))
    && forall v :: v in PreOrderList(forest) ==>
         v.id in after && exists j :: 0 <= j < |ws| && ws[j].comm == v.id && after[v.id].globalId == ws[j].gid
  }

  /** Writes that follow the pre-order of a forest unfolded from `comms`,
      as the assign pass makes them, all land in `comms`, and storing them
      gives every visited communicator its id. */
  lemma StoreIdsCoversForest(comms: CommTable, forest: seq<Tree>, ws: seq<Write>)
    requires AllInTable(forest, comms)
    requires |ws| == |PreOrderList(forest)|
    requires forall i :: 0 <= i < |ws| ==> ws[i].comm == PreOrderList(forest)[i].id
    ensures forall j :: 0 <= j < |ws| ==> ws[j].comm in comms
    ensures StoredEvery(comms, StoreIds(comms, ws), forest, ws)
  {
    var order := PreOrderList(forest);
    PreOrderListInTable(forest, comms);
    forall j | 0 <= j < |ws| ensures ws[j].comm in comms {
      assert order[j] in order;
    }
    var after := StoreIds(comms, ws);
    forall v | v in order
      ensures v.id in after && exists j :: 0 <= j < |ws| && ws[j].comm == v.id && after[v.id].globalId == ws[j].gid
    {
      var i :| 0 <= i < |order| && order[i] == v;
      assert ws[i].comm == v.id;
      var g := LastGid(ws, v.id, comms[v.id].globalId);
      assert after[v.id].globalId == g;
    }
  }
}

=== FILE: groups.dfy ===
/** MPI groups as the writer keeps them: an ordered list of global ranks
    under a local group id, and the two group derivations it implements,
    inclusion and exclusion by index (MPI_Group_incl and MPI_Group_excl,
    section 6.3.2 of the MPI 3.1 standard). */
module Groups {
  import opened Common

  datatype Group = Group(localId: int, isCommWorld: bool, globalRanks: seq<int>)

  type GroupTable = map<int, Group>

  /** The value `groups_[id]` creates for an id it has not seen. */
  const FreshGroup: Group := Group(0, false, [])

  /** `groups_[id]` read through `operator[]`. */
  function Lookup(groups: GroupTable, id: int): (g: Group)
    ensures id in groups ==> g == groups[id]
    ensures id !in groups ==> g == FreshGroup
  {
    if id in groups then groups[id] else FreshGroup
  }

  ghost predicate IndicesIn(ranks: seq<int>, n: int)
  {
    forall i :: 0 <= i < |ranks| ==> 0 <= ranks[i] < n
  }

  ghost predicate Distinct(s: seq<int>)
  {
    forall i, j :: 0 <= i < j < |s| ==> s[i] != s[j]
  }

  ghost predicate StrictlySorted(s: seq<int>)
  {
    forall i, j :: 0 <= i < j < |s| ==> s[i] < s[j]
  }

  // ---------------------------------------------------------------------
  // Inclusion

  /** The members `mpi_group_incl_first_pass` copies: `parent[ranks[i]]`. */
  function Incl(parent: seq<int>, ranks: seq<int>): (r: seq<int>)
    requires IndicesIn(ranks, |parent|)
    ensures |r| == |ranks|
    ensures forall i :: 0 <= i < |ranks| ==> r[i] == parent[ranks[i]]
  {
    seq(|ranks|, i requires 0 <= i < |ranks| => parent[ranks[i]])
  }

  /** Including by `a` and then by `b` is including by the composed index
      list `a[b[i]]`. */
  lemma InclCompose(parent: seq<int>, a: seq<int>, b: seq<int>)
    requires IndicesIn(a, |parent|) && IndicesIn(b, |a|)
    ensures IndicesIn(Incl(a, b), |parent|)
    ensures Incl(Incl(parent, a), b) == Incl(parent, Incl(a, b))
  {
  }

  /** Including every position in order gives the parent back. */
  lemma InclIdentity(parent: seq<int>)
    ensures IndicesIn(seq(|parent|, i => i), |parent|)
    ensures Incl(parent, seq(|parent|, i => i)) == parent
  {
  }

  // ---------------------------------------------------------------------
  // Exclusion

  /** The members left after removing the positions in `ex`, in order. */
  function Keep(parent: seq<int>, ex: set<int>): seq<int>
  {
    if |parent| == 0 then []
    else Keep(parent[..|parent| - 1], ex)
         + (if |parent| - 1 in ex then [] else [parent[|parent| - 1]])
  }

  /** `std::set::insert` on the ascending contents of the set. */
  function Insert(s: seq<int>, x: int): seq<int>
  {
    if |s| == 0 then [x]
    else if x < s[0] then [x] + s
    else if x == s[0] then s
    else [s[0]] + Insert(s[1..], x)
  }

  lemma {:induction false} InsertSpec(s: seq<int>, x: int)
    requires StrictlySorted(s)
    ensures StrictlySorted(Insert(s, x))
    ensures forall y :: y in Insert(s, x) <==> y in s || y == x
    ensures |Insert(s, x)| == if x in s then |s| else |s| + 1
    decreases |s|
  {
    if |s| > 0 && x > s[0] {
      InsertSpec(s[1..], x);
      assert forall y :: y in s <==> y == s[0] || y in s[1..];
      var r := Insert(s, x);
      forall i, j | 0 <= i < j < |r| ensures r[i] < r[j] {
        if i == 0 { assert r[j] in Insert(s[1..], x); }
      }
    }
  }

  /** `sortedRanks` after inserting every element of `ranks`. */
  function SortedSet(ranks: seq<int>): seq<int>
  {
    if |ranks| == 0 then [] else Insert(SortedSet(ranks[..|ranks| - 1]), ranks[|ranks| - 1])
  }

  lemma {:induction false} SortedSetSpec(ranks: seq<int>)
    ensures StrictlySorted(SortedSet(ranks))
    ensures forall y :: y in SortedSet(ranks) <==> y in ranks
    ensures Distinct(ranks) ==> |SortedSet(ranks)| == |ranks|
    decreases |ranks|
  {
    if |ranks| > 0 {
      var n := |ranks| - 1;
      SortedSetSpec(ranks[..n]);
      InsertSpec(SortedSet(ranks[..n]), ranks[n]);
      assert forall y :: y in ranks <==> y in ranks[..n] || y == ranks[n] by {
        assert ranks == ranks[..n] + [ranks[n]];
      }
    }
  }

  /** The loop of `mpi_group_excl_first_pass` with the end of the set
      guarded: `k` indexes the next excluded position in `sorted`. */
  function ExclLoop(parent: seq<int>, sorted: seq<int>, i: nat, k: nat, acc: seq<int>): seq<int>
    requires i <= |parent|
    decreases |parent| - i
  {
    if i == |parent| then acc
    else if k < |sorted| && sorted[k] == i then ExclLoop(parent, sorted, i + 1, k + 1, acc)
    else ExclLoop(parent, sorted, i + 1, k, acc + [parent[i]])
  }

  /** Exclusion by index, as `mpi_group_excl_first_pass` evidently intends.
      Whatever the indices, it never adds a member and never grows the
      group; `ExclRemovesExactly` characterises it for valid indices. */
  function Excl(parent: seq<int>, ranks: seq<int>): (r: seq<int>)
    ensures |r| <= |parent|
    ensures forall x :: x in r ==> x in parent
  {
    ExclLoopStaysInside(parent, SortedSet(ranks), 0, 0, []);
    assert parent[0..] == parent;
    ExclLoop(parent, SortedSet(ranks), 0, 0, [])
  }

  /** The loop only appends members of `parent` not yet visited. */
  lemma {:induction false} ExclLoopStaysInside(parent: seq<int>, sorted: seq<int>, i: nat, k: nat, acc: seq<int>)
    requires i <= |parent|
    ensures |ExclLoop(parent, sorted, i, k, acc)| <= |acc| + |parent| - i
    ensures forall x :: x in ExclLoop(parent, sorted, i, k, acc) ==> x in acc || x in parent[i..]
    decreases |parent| - i
  {
    if i < |parent| {
      assert forall x :: x in parent[i + 1..] ==> x in parent[i..];
      if k < |sorted| && sorted[k] == i {
        ExclLoopStaysInside(parent, sorted, i + 1, k + 1, acc);
      } else {
        ExclLoopStaysInside(parent, sorted, i + 1, k, acc + [parent[i]]);
      }
    }
  }

  lemma {:induction false} ExclLoopKeeps(parent: seq<int>, sorted: seq<int>, i: nat, k: nat, acc: seq<int>)
    requires i <= |parent| && k <= |sorted|
    requires StrictlySorted(sorted)
    requires forall j :: 0 <= j < |sorted| ==> 0 <= sorted[j] < |parent|
    requires forall j :: 0 <= j < k ==> sorted[j] < i
    requires forall j :: k <= j < |sorted| ==> sorted[j] >= i
    requires acc == Keep(parent[..i], set x | x in sorted)
    requires |acc| == i - k
    ensures ExclLoop(parent, sorted, i, k, acc) == Keep(parent, set x | x in sorted)
    ensures |ExclLoop(parent, sorted, i, k, acc)| == |parent| - |sorted|
    decreases |parent| - i
  {
    var ex := set x | x in sorted;
    if i == |parent| {
      assert parent[..i] == parent;
      BoundAt(sorted, k, |parent|);
    } else {
      assert parent[..i + 1][..i] == parent[..i];
      if k < |sorted| && sorted[k] == i {
        assert i in ex;
        ExclLoopKeeps(parent, sorted, i + 1, k + 1, acc);
      } else {
        forall j | 0 <= j < |sorted| ensures sorted[j] != i {
          if j > k { assert sorted[k] < sorted[j]; }
        }
        assert i !in ex;
        ExclLoopKeeps(parent, sorted, i + 1, k, acc + [parent[i]]);
      }
    }
  }

  lemma BoundAt(s: seq<int>, k: int, n: int)
    requires forall j :: 0 <= j < |s| ==> s[j] < n
    requires 0 <= k
    ensures k < |s| ==> s[k] < n
  {
  }

  /** For distinct in-range indices, exclusion keeps exactly the other
      positions, in their original order, and has `|parent| - |ranks|`
      members. */
  lemma ExclRemovesExactly(parent: seq<int>, ranks: seq<int>)
    requires IndicesIn(ranks, |parent|) && Distinct(ranks)
    ensures Excl(parent, ranks) == Keep(parent, set x | x in ranks)
    ensures |Excl(parent, ranks)| == |parent| - |ranks|
  {
    var sorted := SortedSet(ranks);
    SortedSetSpec(ranks);
    assert (set x | x in sorted) == (set x | x in ranks);
    forall j | 0 <= j < |sorted| ensures 0 <= sorted[j] < |parent| {
      assert sorted[j] in ranks;
    }
    assert parent[..0] == [];
    ExclLoopKeeps(parent, sorted, 0, 0, []);
  }

  /** Excluding positions 1 and 3 of [10, 11, 12, 13, 14] leaves [10, 12, 14]. */
  lemma ExclExample()
    ensures Excl([10, 11, 12, 13, 14], [1, 3]) == [10, 12, 14]
  {
    var p := [10, 11, 12, 13, 14];
    var s := [1, 3];
    assert SortedSet([1, 3]) == s by {
      assert [1, 3][..1] == [1];
      assert SortedSet([1]) == [1] by { assert [1][..0] == []; }
    }
    calc {
      ExclLoop(p, s, 0, 0, []);
      ExclLoop(p, s, 1, 0, [10]);
      ExclLoop(p, s, 2, 1, [10]);
      ExclLoop(p, s, 3, 1, [10, 12]);
      ExclLoop(p, s, 4, 2, [10, 12]);
      ExclLoop(p, s, 5, 2, [10, 12, 14]);
    }
  }

  /** The loop of `mpi_group_excl_first_pass` as written: the result is
      sized `|parent| - count`, and once the set iterator reaches its end
      `*iter` still reads a value, here `pastEnd` (the language leaves it
      undefined). `None` stands for a negative size or a write past the end.
      Two simplifications: the buffer starts as zeros, whereas `resize`
      keeps the leading members of an existing `newgroup`; and every read
      past the end yields the same `pastEnd`, whereas the source may read a
      different value each time. */
  function ExclAsWritten(parent: seq<int>, ranks: seq<int>, pastEnd: int): (r: Option<seq<int>>)
    ensures |parent| < |ranks| ==> r.None?
    ensures r.Some? ==> |r.value| == |parent| - |ranks|
  {
    if |parent| - |ranks| < 0 then None
    else ExclAsWrittenLoop(parent, SortedSet(ranks), pastEnd, 0, 0, 0, seq(|parent| - |ranks|, _ => 0))
  }

  function ExclAsWrittenLoop(parent: seq<int>, sorted: seq<int>, pastEnd: int,
                             i: nat, k: nat, next: nat, buf: seq<int>): (r: Option<seq<int>>)
    requires i <= |parent|
    ensures r.Some? ==> |r.value| == |buf|
    decreases |parent| - i
  {
    if i == |parent| then Some(buf)
    else
      var nextToAvoid := if k < |sorted| then sorted[k] else pastEnd;
      if nextToAvoid == i then ExclAsWrittenLoop(parent, sorted, pastEnd, i + 1, k + 1, next, buf)
      else if next >= |buf| then None
      else ExclAsWrittenLoop(parent, sorted, pastEnd, i + 1, k, next + 1, buf[next := parent[i]])
  }

  /** The guarded loop only extends what it has collected. */
  lemma {:induction false} ExclLoopExtends(parent: seq<int>, sorted: seq<int>, i: nat, k: nat, acc: seq<int>)
    requires i <= |parent|
    ensures |ExclLoop(parent, sorted, i, k, acc)| >= |acc|
    ensures ExclLoop(parent, sorted, i, k, acc)[..|acc|] == acc
    decreases |parent| - i
  {
    if i < |parent| {
      if k < |sorted| && sorted[k] == i {
        ExclLoopExtends(parent, sorted, i + 1, k + 1, acc);
      } else {
        ExclLoopExtends(parent, sorted, i + 1, k, acc + [parent[i]]);
        assert (acc + [parent[i]])[..|acc|] == acc;
      }
    }
  }

  /** Step by step, the loop as written fills `buf` with what the guarded
      loop collects, as long as the past-the-end read never names a
      position and the result fits. */
  lemma {:induction false} AsWrittenLoopMatches(parent: seq<int>, sorted: seq<int>, pastEnd: int,
                                                i: nat, k: nat, buf: seq<int>, acc: seq<int>)
    requires i <= |parent|
    requires pastEnd < 0 || pastEnd >= |parent|
    requires |acc| <= |buf| && buf[..|acc|] == acc
    requires |ExclLoop(parent, sorted, i, k, acc)| <= |buf|
    ensures var e := ExclLoop(parent, sorted, i, k, acc);
            ExclAsWrittenLoop(parent, sorted, pastEnd, i, k, |acc|, buf) == Some(e + buf[|e|..])
    decreases |parent| - i
  {
    if i == |parent| {
      assert buf == acc + buf[|acc|..];
    } else if k < |sorted| && sorted[k] == i {
      AsWrittenLoopMatches(parent, sorted, pastEnd, i + 1, k + 1, buf, acc);
    } else {
      var acc' := acc + [parent[i]];
      ExclLoopExtends(parent, sorted, i + 1, k, acc');
      var buf' := buf[|acc| := parent[i]];
      assert buf'[..|acc'|] == acc';
      AsWrittenLoopMatches(parent, sorted, pastEnd, i + 1, k, buf', acc');
      var e := ExclLoop(parent, sorted, i + 1, k, acc');
      assert buf'[|e|..] == buf[|e|..];
    }
  }

  /** Where the read past the end of the index set can never equal a
      position of the parent, the code as written computes the corrected
      exclusion; the divergence needs a stray read inside `[0, |parent|)`. */
  lemma ExclAsWrittenAgrees(parent: seq<int>, ranks: seq<int>, pastEnd: int)
    requires IndicesIn(ranks, |parent|) && Distinct(ranks)
    requires pastEnd < 0 || pastEnd >= |parent|
    ensures ExclAsWritten(parent, ranks, pastEnd) == Some(Excl(parent, ranks))
  {
    ExclRemovesExactly(parent, ranks);
    var buf := seq(|parent| - |ranks|, _ => 0);
    assert buf[..0] == [];
    AsWrittenLoopMatches(parent, SortedSet(ranks), pastEnd, 0, 0, buf, []);
    var e := ExclLoop(parent, SortedSet(ranks), 0, 0, []);
    assert e + buf[|e|..] == e;
  }

  /** Excluding position 0 of [10, 11, 12]: once the set is exhausted the
      value read past its end (1 here) makes the loop skip position 1 too,
      so the result is [12, 0] instead of [11, 12]. */
  lemma ExclPastEndCounterexample()
    ensures ExclAsWritten([10, 11, 12], [0], 1) == Some([12, 0])
    ensures Excl([10, 11, 12], [0]) == [11, 12]
  {
    var p := [10, 11, 12];
    var s := [0];
    assert SortedSet([0]) == s by { assert [0][..0] == []; }
    calc {
      ExclLoop(p, s, 0, 0, []);
      ExclLoop(p, s, 1, 1, []);
      ExclLoop(p, s, 2, 1, [11]);
      ExclLoop(p, s, 3, 1, [11, 12]);
    }
    calc {
      ExclAsWrittenLoop(p, s, 1, 0, 0, 0, [0, 0]);
      ExclAsWrittenLoop(p, s, 1, 1, 1, 0, [0, 0]);
      ExclAsWrittenLoop(p, s, 1, 2, 2, 0, [0, 0]);
      { assert [0, 0][0 := 12] == [12, 0]; }
      ExclAsWrittenLoop(p, s, 1, 3, 2, 1, [12, 0]);
    }
    assert seq(|p| - |[0]|, _ => 0) == [0, 0];
  }

  // ---------------------------------------------------------------------
  // First passes over the group table

  /** `mpi_group_incl_first_pass`: the parent entry is created if missing,
      the new group's members become `parent[ranks[i]]`. */
  function GroupInclFirstPass(groups: GroupTable, group: int, ranks: seq<int>, newgroup: int): (r: GroupTable)
    requires group != newgroup
    requires IndicesIn(ranks, |Lookup(groups, group).globalRanks|)
    ensures r.Keys == groups.Keys + {group, newgroup}
    ensures r[group] == Lookup(groups, group)
    ensures r[newgroup].globalRanks == Incl(Lookup(groups, group).globalRanks, ranks)
    ensures r[newgroup] == Lookup(groups, newgroup).(globalRanks := r[newgroup].globalRanks)
    ensures forall g :: g in groups && g != newgroup ==> r[g] == groups[g]
  {
    var parent := Lookup(groups, group);
    var sub := Lookup(groups, newgroup);
    groups[group := parent][newgroup := sub.(globalRanks := Incl(parent.globalRanks, ranks))]
  }

  /** `mpi_group_excl_first_pass` with the end of the index set guarded;
      MPI requires the indices distinct and valid. */
  function GroupExclFirstPass(groups: GroupTable, group: int, ranks: seq<int>, newgroup: int): (r: GroupTable)
    requires group != newgroup
    requires IndicesIn(ranks, |Lookup(groups, group).globalRanks|) && Distinct(ranks)
    ensures r.Keys == groups.Keys + {group, newgroup}
    ensures r[group] == Lookup(groups, group)
    ensures r[newgroup].globalRanks == Keep(Lookup(groups, group).globalRanks, set x | x in ranks)
    ensures |r[newgroup].globalRanks| == |Lookup(groups, group).globalRanks| - |ranks|
    ensures r[newgroup] == Lookup(groups, newgroup).(globalRanks := r[newgroup].globalRanks)
    ensures forall g :: g in groups && g != newgroup ==> r[g] == groups[g]
  {
    var parent := Lookup(groups, group);
    var sub := Lookup(groups, newgroup);
    ExclRemovesExactly(parent.globalRanks, ranks);
    groups[group := parent][newgroup := sub.(globalRanks := Excl(parent.globalRanks, ranks))]
  }
}

=== FILE: requests.dfy ===
/** The non-blocking request tracker: `incomplete_call` records the kind of
    an outstanding request, `mpi_irecv` keeps a snapshot of the receive, and
    `complete_call` (driven by the wait/test family) emits the completion
    record and forgets the request. */
module Requests {
  import opened Events

  datatype Kind = ISend | IRecv

  /** What `mpi_irecv` captures at issue time for the later receive record. */
  datatype Capture = Capture(bytes: int, source: int, tag: int, comm: int, request: int)

  /** `nullId`: the registered null-request sentinel; `kinds`: `request_type`;
      `captures`: `irecv_requests`. */
  datatype Tracker = Tracker(nullId: int, kinds: map<int, Kind>, captures: map<int, Capture>)

  /** Result of completing requests: the process aborts, or the tracker
      moves on and some records are emitted. */
  datatype Completion = Aborted | Completed(tracker: Tracker, records: seq<Record>)

  function Empty(nullId: int): Tracker
  {
    Tracker(nullId, map[], map[])
  }

  /** Every receive still outstanding has its snapshot, and the null
      sentinel is never tracked. */
  ghost predicate WellFormed(t: Tracker)
  {
    && t.nullId !in t.kinds
    && forall id :: id in t.kinds && t.kinds[id] == IRecv ==> id in t.captures
  }

  /** `incomplete_call`: start tracking `id` unless it is the null request;
      a stale entry is overwritten. */
  function Begin(t: Tracker, id: int, kind: Kind): (r: Tracker)
    ensures r.nullId == t.nullId && r.captures == t.captures
    ensures id == t.nullId ==> r == t
    ensures id != t.nullId ==> r.kinds.Keys == t.kinds.Keys + {id} && r.kinds[id] == kind
    ensures forall other :: other in t.kinds && other != id ==> other in r.kinds && r.kinds[other] == t.kinds[other]
  {
    if id != t.nullId then t.(kinds := t.kinds[id := kind]) else t
  }

  /** The tracker part of `mpi_irecv`: the snapshot is stored under `id`
      even for the null request, then `incomplete_call` runs. */
  function BeginIrecv(t: Tracker, id: int, c: Capture): (r: Tracker)
    ensures r.captures == t.captures[id := c]
    ensures id == t.nullId ==> r.kinds == t.kinds
    ensures id != t.nullId ==> r.kinds == t.kinds[id := IRecv]
  {
    Begin(t.(captures := t.captures[id := c]), id, IRecv)
  }

  /** `complete_call`. A tracked id emits one record and is dropped; an
      untracked null id does nothing; an untracked non-null id aborts. A
      tracked receive without a snapshot also aborts (the source reads the
      missing snapshot before it checks, which the model cannot express;
      `WellFormed` rules that case out). */
  function Complete(t: Tracker, id: int, time: int): (r: Completion)
    ensures id !in t.kinds && id == t.nullId ==> r == Completed(t, [])
    ensures id !in t.kinds && id != t.nullId ==> r.Aborted?
    ensures id in t.kinds && WellFormed(t) ==>
              && r.Completed?
              && r.tracker.nullId == t.nullId
              && r.tracker.kinds == t.kinds - {id}
              && r.tracker.captures == (if t.kinds[id] == IRecv then t.captures - {id} else t.captures)
              && r.records == (if t.kinds[id] == ISend then [IsendComplete(time, id)]
                               else [Irecv(time, t.captures[id].source, t.captures[id].comm,
                                           t.captures[id].tag, t.captures[id].bytes, id)])
  {
    if id !in t.kinds then
      if id != t.nullId then Aborted else Completed(t, [])
    else match t.kinds[id]
      case ISend =>
        Completed(t.(kinds := t.kinds - {id}), [IsendComplete(time, id)])
      case IRecv =>
        if id !in t.captures then Aborted
        else
          var c := t.captures[id];
          Completed(Tracker(t.nullId, t.kinds - {id}, t.captures - {id}),
                    [Irecv(time, c.source, c.comm, c.tag, c.bytes, id)])
  }

  /** Complete each id in order; an abort stops everything. A batch that
      does not abort keeps the tracker well formed and emits only completion
      records. */
  function CompleteEach(t: Tracker, ids: seq<int>, time: int): (r: Completion)
    ensures WellFormed(t) ==> Settled(t, r, time)
    decreases |ids|
  {
    CompleteSettles(t, if |ids| == 0 then t.nullId else ids[0], time);
    if |ids| == 0 then Completed(t, [])
    else match Complete(t, ids[0], time)
      case Aborted => Aborted
      case Completed(t1, recs1) =>
        match CompleteEach(t1, ids[1..], time)
        case Aborted => Aborted
        case Completed(t2, recs2) => Completed(t2, recs1 + recs2)
  }

  /** The loop of `mpi_waitall` with the set `called` of ids already
      completed in this batch: null ids and repeats are skipped. */
  function WaitAllLoop(t: Tracker, ids: seq<int>, called: set<int>, time: int): (r: Completion)
    ensures WellFormed(t) ==> Settled(t, r, time)
    decreases |ids|
  {
    CompleteSettles(t, if |ids| == 0 then t.nullId else ids[0], time);
    if |ids| == 0 then Completed(t, [])
    else if ids[0] == t.nullId || ids[0] in called then WaitAllLoop(t, ids[1..], called, time)
    else match Complete(t, ids[0], time)
      case Aborted => Aborted
      case Completed(t1, recs1) =>
        match WaitAllLoop(t1, ids[1..], called + {ids[0]}, time)
        case Aborted => Aborted
        case Completed(t2, recs2) => Completed(t2, recs1 + recs2)
  }

  /** The distinct non-null ids of a batch, in order of first occurrence,
      leaving out those in `seen`. */
  function Dedup(ids: seq<int>, nullId: int, seen: set<int>): seq<int>
    decreases |ids|
  {
    if |ids| == 0 then []
    else if ids[0] == nullId || ids[0] in seen then Dedup(ids[1..], nullId, seen)
    else [ids[0]] + Dedup(ids[1..], nullId, seen + {ids[0]})
  }

  ghost predicate Distinct(s: seq<int>)
  {
    forall i, j :: 0 <= i < j < |s| ==> s[i] != s[j]
  }

  /** `Dedup` keeps exactly the non-null ids not yet seen, each once. */
  lemma {:induction false} DedupSpec(ids: seq<int>, nullId: int, seen: set<int>)
    ensures Distinct(Dedup(ids, nullId, seen))
    ensures forall x :: x in Dedup(ids, nullId, seen) <==> x in ids && x != nullId && x !in seen
    decreases |ids|
  {
    if |ids| > 0 {
      DedupSpec(ids[1..], nullId, seen);
      DedupSpec(ids[1..], nullId, seen + {ids[0]});
      assert forall x :: x in ids <==> x == ids[0] || x in ids[1..];
    }
  }

  /** `mpi_waitall` completes exactly the distinct non-null ids of its
      batch, in order of first occurrence. */
  lemma {:induction false} WaitAllIsDedupedCompletion(t: Tracker, ids: seq<int>, called: set<int>, time: int)
    ensures WaitAllLoop(t, ids, called, time) == CompleteEach(t, Dedup(ids, t.nullId, called), time)
    decreases |ids|
  {
    if |ids| > 0 {
      if ids[0] == t.nullId || ids[0] in called {
        WaitAllIsDedupedCompletion(t, ids[1..], called, time);
      } else {
        var d := Dedup(ids, t.nullId, called);
        assert d[0] == ids[0] && d[1..] == Dedup(ids[1..], t.nullId, called + {ids[0]});
        match Complete(t, ids[0], time)
        case Aborted =>
        case Completed(t1, _) =>
          assert t1.nullId == t.nullId;
          WaitAllIsDedupedCompletion(t1, ids[1..], called + {ids[0]}, time);
      }
    }
  }

  /** Completing a list of distinct tracked ids emits one record each and
      untracks exactly those ids. */
  lemma {:induction false} CompleteEachDistinct(t: Tracker, ids: seq<int>, time: int)
    requires WellFormed(t) && Distinct(ids)
    requires forall i :: 0 <= i < |ids| ==> ids[i] in t.kinds
    ensures CompleteEach(t, ids, time).Completed?
    ensures |CompleteEach(t, ids, time).records| == |ids|
    ensures CompleteEach(t, ids, time).tracker.kinds == t.kinds - set i | 0 <= i < |ids| :: ids[i]
    ensures WellFormed(CompleteEach(t, ids, time).tracker)
    decreases |ids|
  {
    if |ids| > 0 {
      var c := Complete(t, ids[0], time);
      CompleteSettles(t, ids[0], time);
      var t1 := c.tracker;
      assert forall i :: 1 <= i < |ids| ==> ids[i] != ids[0];
      CompleteEachDistinct(t1, ids[1..], time);
      var rest := set i | 0 <= i < |ids[1..]| :: ids[1..][i];
      var all := set i | 0 <= i < |ids| :: ids[i];
      assert all == {ids[0]} + rest by {
        forall x | x in all ensures x in {ids[0]} + rest {
          var i :| 0 <= i < |ids| && ids[i] == x;
          if i > 0 { assert ids[1..][i - 1] == x; }
        }
      }
    }
  }

  /** Whenever every non-null id of a `mpi_waitall` batch is tracked, the
      call succeeds, emits one record per distinct non-null id and untracks
      exactly those ids. */
  lemma WaitAllCompletesEachOnce(t: Tracker, ids: seq<int>, time: int)
    requires WellFormed(t)
    requires forall i :: 0 <= i < |ids| && ids[i] != t.nullId ==> ids[i] in t.kinds
    ensures WaitAllLoop(t, ids, {}, time).Completed?
    ensures |WaitAllLoop(t, ids, {}, time).records| == |Dedup(ids, t.nullId, {})|
    ensures WaitAllLoop(t, ids, {}, time).tracker.kinds
         == t.kinds - set i | 0 <= i < |ids| && ids[i] != t.nullId :: ids[i]
  {
    var d := Dedup(ids, t.nullId, {});
    WaitAllIsDedupedCompletion(t, ids, {}, time);
    DedupSpec(ids, t.nullId, {});
    assert forall i :: 0 <= i < |d| ==> d[i] in d;
    CompleteEachDistinct(t, d, time);
    var a := set i | 0 <= i < |d| :: d[i];
    var b := set i | 0 <= i < |ids| && ids[i] != t.nullId :: ids[i];
    assert a == b by {
      forall x | x in b ensures x in a {
        assert x in ids;
        var j :| 0 <= j < |d| && d[j] == x;
      }
    }
  }

  /** `incomplete_call` and `mpi_irecv` keep the tracker well formed. */
  lemma BeginPreservesWellFormed(t: Tracker, id: int, c: Capture)
    ensures WellFormed(t) ==> WellFormed(Begin(t, id, ISend))
    ensures WellFormed(t) ==> WellFormed(BeginIrecv(t, id, c))
  {
  }

  /** Lifecycle: a request begun and then completed emits exactly the record
      of its kind (for a receive, built from the snapshot) and leaves no
      entry behind; completing it a second time aborts. */
  lemma BeginThenComplete(t: Tracker, id: int, kind: Kind, c: Capture, time: int)
    requires WellFormed(t) && id != t.nullId
    ensures var t1 := if kind == ISend then Begin(t, id, ISend) else BeginIrecv(t, id, c);
            var r := Complete(t1, id, time);
            && r.Completed?
            && r.tracker.kinds == t.kinds - {id}
            && r.records == (if kind == ISend then [IsendComplete(time, id)]
                             else [Irecv(time, c.source, c.comm, c.tag, c.bytes, id)])
            && Complete(r.tracker, id, time).Aborted?
  {
  }

  /** `mpi_test` and `mpi_wait`: `mpi_test` completes only when its flag is set. */
  function Test(t: Tracker, id: int, flag: int, time: int): (r: Completion)
    ensures flag == 0 ==> r == Completed(t, [])
    ensures flag != 0 ==> r == Complete(t, id, time)
  {
    if flag != 0 then Complete(t, id, time) else Completed(t, [])
  }

  /** `MPI_UNDEFINED` in MPICH and Open MPI: the index `MPI_Testany`
      reports, with the flag set, when no request was active. */
  const Undefined: int := -32766

  /** `mpi_testany` as evidently intended: completes `requests[index]` when
      the flag is set and the index names a request; a set flag with an
      index outside the array (`MPI_UNDEFINED`) completes nothing. */
  function TestAny(t: Tracker, requests: seq<int>, index: int, flag: int, time: int): (r: Completion)
    ensures flag == 0 || !(0 <= index < |requests|) ==> r == Completed(t, [])
    ensures flag != 0 && 0 <= index < |requests| ==> r == Complete(t, requests[index], time)
  {
    if flag != 0 && 0 <= index < |requests| then Complete(t, requests[index], time) else Completed(t, [])
  }

  /** `mpi_testany` as written: `requests[index]` is read whenever the flag
      is set. For an index outside the array the read is undefined; `stray`
      stands for whatever value it yields. */
  function TestAnyAsWritten(t: Tracker, requests: seq<int>, index: int, flag: int, time: int, stray: int): (r: Completion)
    ensures flag == 0 ==> r == Completed(t, [])
    ensures flag != 0 && 0 <= index < |requests| ==> r == TestAny(t, requests, index, flag, time)
    ensures flag != 0 && !(0 <= index < |requests|) ==> r == Complete(t, stray, time)
  {
    if flag == 0 then Completed(t, [])
    else Complete(t, if 0 <= index < |requests| then requests[index] else stray, time)
  }

  /** The two agree whenever the index names a request. When `MPI_Testany`
      reports `MPI_UNDEFINED` with the flag set, the code as written
      completes whatever id the stray read yields (here an untracked one,
      so the process aborts), while nothing should be completed. */
  lemma TestAnyUndefinedIndex(t: Tracker, requests: seq<int>, time: int, stray: int)
    requires stray !in t.kinds && stray != t.nullId
    ensures TestAnyAsWritten(t, requests, Undefined, 1, time, stray).Aborted?
    ensures TestAny(t, requests, Undefined, 1, time) == Completed(t, [])
  {
  }

  /** `mpi_testall`: when the flag is set every request is completed, in
      order and without skipping null ids or repeats. */
  function TestAll(t: Tracker, requests: seq<int>, flag: int, time: int): (r: Completion)
    ensures flag == 0 ==> r == Completed(t, [])
    ensures flag != 0 ==> r == CompleteEach(t, requests, time)
  {
    if flag != 0 then CompleteEach(t, requests, time) else Completed(t, [])
  }

  /** The requests `mpi_waitsome` and `mpi_testsome` complete:
      `requests[indices[i]]` for each `i < outcount`. A negative `outcount`
      (`MPI_UNDEFINED`, no active request) selects nothing. */
  function Selected(requests: seq<int>, indices: seq<int>, outcount: int): (r: seq<int>)
    requires outcount <= |indices|
    requires forall i :: 0 <= i < outcount ==> 0 <= indices[i] < |requests|
    ensures |r| == if outcount <= 0 then 0 else outcount
    ensures forall i :: 0 <= i < |r| ==> r[i] == requests[indices[i]]
  {
    if outcount <= 0 then []
    else seq(outcount, i requires 0 <= i < outcount => requests[indices[i]])
  }

  /** `mpi_waitsome` / `mpi_testsome`: nothing happens for a non-positive
      `outcount`; otherwise the selected requests are completed in order,
      and distinct tracked ones each yield one record and are untracked. */
  function WaitSome(t: Tracker, requests: seq<int>, indices: seq<int>, outcount: int, time: int): (r: Completion)
    requires outcount <= |indices|
    requires forall i :: 0 <= i < outcount ==> 0 <= indices[i] < |requests|
    ensures outcount <= 0 ==> r == Completed(t, [])
    ensures WellFormed(t) ==> Settled(t, r, time)
    ensures var s := Selected(requests, indices, outcount);
            WellFormed(t) && Distinct(s) && (forall i :: 0 <= i < |s| ==> s[i] in t.kinds) ==>
              && r.Completed?
              && |r.records| == |s|
              && r.tracker.kinds == t.kinds - set i | 0 <= i < |s| :: s[i]
  {
    var s := Selected(requests, indices, outcount);
    assert WellFormed(t) && Distinct(s) && (forall i :: 0 <= i < |s| ==> s[i] in t.kinds) ==>
             && CompleteEach(t, s, time).Completed?
             && |CompleteEach(t, s, time).records| == |s|
             && CompleteEach(t, s, time).tracker.kinds == t.kinds - set i | 0 <= i < |s| :: s[i]
    by {
      if WellFormed(t) && Distinct(s) && (forall i :: 0 <= i < |s| ==> s[i] in t.kinds) {
        CompleteEachDistinct(t, s, time);
      }
    }
    CompleteEach(t, s, time)
  }

  /** `mpi_waitsome` does not de-duplicate: naming one tracked non-null
      request twice aborts on the second completion. */
  lemma WaitSomeRepeatAborts(t: Tracker, requests: seq<int>, time: int)
    requires WellFormed(t) && |requests| == 1 && requests[0] in t.kinds
    ensures WaitSome(t, requests, [0, 0], 2, time).Aborted?
  {
    var id := requests[0];
    assert Selected(requests, [0, 0], 2) == [id, id];
    var t1 := Complete(t, id, time).tracker;
    assert id != t.nullId;
    assert Complete(t1, id, time).Aborted?;
    assert [id, id][1..] == [id];
    assert CompleteEach(t1, [id], time).Aborted?;
  }

  // ---------------------------------------------------------------------
  // What any batch of completions leaves behind

  /** A completion record stamped at `time`. */
  predicate IsCompletion(r: Record, time: int)
  {
    (r.IsendComplete? || r.Irecv?) && r.time == time
  }

  /** A batch that did not abort leaves a well-formed tracker with the same
      null sentinel and emits only completion records stamped at `time`. */
  ghost predicate Settled(t: Tracker, c: Completion, time: int)
  {
    c.Completed? ==>
      && WellFormed(c.tracker)
      && c.tracker.nullId == t.nullId
      && forall i :: 0 <= i < |c.records| ==> IsCompletion(c.records[i], time)
  }

  lemma CompleteSettles(t: Tracker, id: int, time: int)
    ensures WellFormed(t) ==> Settled(t, Complete(t, id, time), time)
  {
  }
}

=== FILE: typesizes.dfy ===
/** The type-size registry: a map from MPI datatype id to its size in bytes,
    filled by `register_type` and by the derived-type constructors, and read
    by `count_bytes` when the writer accounts message sizes. */
module TypeSizes {
  import opened Common

  /** Datatype id to size in bytes. */
  type Registry = map<int, int>

  /** The per-element size assumed for a type the registry does not know. */
  const DefaultSize: int := 4

  /** `register_type`: record (or overwrite) the size of one type. */
  function RegisterType(reg: Registry, t: int, size: int): (r: Registry)
    ensures r.Keys == reg.Keys + {t}
    ensures r[t] == size
    ensures forall u :: u in reg && u != t ==> r[u] == reg[u]
  {
    reg[t := size]
  }

  /** `type_is_known` (its warning is logging only). A known type is one
      `count_bytes` prices at its registered size; an unknown one it
      prices at the default. */
  function TypeIsKnown(reg: Registry, t: int): (b: bool)
    ensures t in reg ==> b && CountBytes(reg, t, 1) == reg[t]
    ensures t !in reg ==> !b && CountBytes(reg, t, 1) == DefaultSize
  {
    t in reg
  }

  /** `count_bytes`: bytes taken by `count` elements of type `t`; an unknown
      type is taken to be `DefaultSize` bytes wide. It only reads `reg`. */
  function CountBytes(reg: Registry, t: int, count: int): (n: int)
    ensures t in reg ==> n == reg[t] * count
    ensures t !in reg ==> n == DefaultSize * count
  {
    if t !in reg then DefaultSize * count else reg[t] * count
  }

  /** `type_sizes_[type]` through `operator[]`: a missing type is inserted
      with size 0 and read as 0, not as `DefaultSize`. */
  function SizeInserting(reg: Registry, t: int): (r: (Registry, int))
    ensures r.0.Keys == reg.Keys + {t}
    ensures t in reg ==> r.0 == reg && r.1 == reg[t]
    ensures t !in reg ==> r.0 == reg[t := 0] && r.1 == 0
  {
    if t in reg then (reg, reg[t]) else (reg[t := 0], 0)
  }

  /** `mpi_type_contiguous`: `count` copies of `old`; `None` is the
      unknown-type failure. */
  function ContiguousSize(reg: Registry, count: int, base: int): (r: Option<int>)
    ensures r.Some? <==> base in reg
    ensures r.Some? ==> r.value == CountBytes(reg, base, count)
  {
    if !TypeIsKnown(reg, base) then None else Some(CountBytes(reg, base, count))
  }

  /** `mpi_t_vector_inner` (vector, hvector, create_hvector): `count` blocks
      of `blocklength` elements; the stride does not enter the size. */
  function VectorSize(reg: Registry, count: int, blocklength: int, base: int): (r: Option<int>)
    ensures r.Some? <==> base in reg
    ensures r.Some? ==> r.value == CountBytes(reg, base, blocklength) * count
  {
    if !TypeIsKnown(reg, base) then None else Some(CountBytes(reg, base, blocklength) * count)
  }

  /** `mpi_t_indexed_inner` (indexed, hindexed, create_hindexed): the block
      lengths are summed; displacements do not enter the size. The writer's
      `mpi_type_create_subarray` uses the same rule on the SUM of the
      subsizes (not their product). */
  function IndexedSize(reg: Registry, lengths: seq<int>, base: int): (r: Option<int>)
    ensures r.Some? <==> base in reg
    ensures r.Some? ==> r.value == CountBytes(reg, base, Sum(lengths))
  {
    if !TypeIsKnown(reg, base) then None else Some(CountBytes(reg, base, Sum(lengths)))
  }

  /** The bytes of each struct block, `count_bytes(oldtypes[i], blocklengths[i])`. */
  function BlockBytes(reg: Registry, blocklengths: seq<int>, oldtypes: seq<int>): (r: seq<int>)
    requires |blocklengths| == |oldtypes|
    ensures |r| == |oldtypes|
  {
    seq(|oldtypes|, j requires 0 <= j < |oldtypes| => CountBytes(reg, oldtypes[j], blocklengths[j]))
  }

  /** The loop of `mpi_t_struct_inner` from block `i` on with running sum
      `sum`: it gives up at the first unknown constituent. */
  function StructLoop(reg: Registry, blocklengths: seq<int>, oldtypes: seq<int>, i: nat, sum: int): Option<int>
    requires |blocklengths| == |oldtypes| && i <= |oldtypes|
    decreases |oldtypes| - i
  {
    if i == |oldtypes| then Some(sum)
    else if !TypeIsKnown(reg, oldtypes[i]) then None
    else StructLoop(reg, blocklengths, oldtypes, i + 1, sum + CountBytes(reg, oldtypes[i], blocklengths[i]))
  }

  /** `mpi_t_struct_inner`: size of a struct type, or `None` when some
      constituent is unknown (then nothing is written). */
  function StructSize(reg: Registry, blocklengths: seq<int>, oldtypes: seq<int>): Option<int>
    requires |blocklengths| == |oldtypes|
  {
    StructLoop(reg, blocklengths, oldtypes, 0, 0)
  }

  lemma {:induction false} StructLoopSum(reg: Registry, blocklengths: seq<int>, oldtypes: seq<int>, i: nat, sum: int)
    requires |blocklengths| == |oldtypes| && i <= |oldtypes|
    ensures StructLoop(reg, blocklengths, oldtypes, i, sum)
         == if forall j :: i <= j < |oldtypes| ==> oldtypes[j] in reg
            then Some(sum + Sum(BlockBytes(reg, blocklengths, oldtypes)[i..]))
            else None
    decreases |oldtypes| - i
  {
    var bytes := BlockBytes(reg, blocklengths, oldtypes);
    if i < |oldtypes| {
      StructLoopSum(reg, blocklengths, oldtypes, i + 1, sum + bytes[i]);
      SumCons(bytes[i..]);
      assert bytes[i..][1..] == bytes[i + 1..];
    }
  }

  /** The struct size is the sum of the block sizes when every constituent
      is known, and the unknown-type outcome as soon as one is not. */
  lemma StructSizeIsSumOfBlocks(reg: Registry, blocklengths: seq<int>, oldtypes: seq<int>)
    requires |blocklengths| == |oldtypes|
    ensures StructSize(reg, blocklengths, oldtypes).Some?
        <==> forall j :: 0 <= j < |oldtypes| ==> oldtypes[j] in reg
    ensures StructSize(reg, blocklengths, oldtypes).Some? ==>
              StructSize(reg, blocklengths, oldtypes).value == Sum(BlockBytes(reg, blocklengths, oldtypes))
  {
    StructLoopSum(reg, blocklengths, oldtypes, 0, 0);
    assert BlockBytes(reg, blocklengths, oldtypes)[0..] == BlockBytes(reg, blocklengths, oldtypes);
  }

  /** Store the derived size under `derived`; a failed derivation (`None`)
      leaves the registry as it was. */
  function Define(reg: Registry, derived: int, size: Option<int>): (r: Registry)
    ensures size.None? ==> r == reg
    ensures size.Some? ==> r == RegisterType(reg, derived, size.value)
  {
    if size.None? then reg else reg[derived := size.value]
  }

  /** `count_bytes` is additive in the element count. */
  lemma CountBytesAdditive(reg: Registry, t: int, a: int, b: int)
    ensures CountBytes(reg, t, a + b) == CountBytes(reg, t, a) + CountBytes(reg, t, b)
  {
    if t in reg {
      assert reg[t] * (a + b) == reg[t] * a + reg[t] * b;
    }
  }

  /** A registered type is counted with its registered size. */
  lemma CountAfterRegister(reg: Registry, t: int, size: int, count: int)
    ensures CountBytes(RegisterType(reg, t, size), t, count) == size * count
  {
  }

  /** Registering a type makes it known and changes nothing else about
      which types are known. */
  lemma KnownAfterRegister(reg: Registry, t: int, size: int, u: int)
    ensures TypeIsKnown(RegisterType(reg, t, size), u) <==> u == t || TypeIsKnown(reg, u)
  {
  }

  /** The inserting read `type_sizes_[type]` of a send makes the type known
      with size 0, so later derivations over it no longer fail and later
      `count_bytes` calls give 0 instead of the 4-byte default. */
  lemma KnownAfterInserting(reg: Registry, t: int, count: int)
    ensures TypeIsKnown(SizeInserting(reg, t).0, t)
    ensures !TypeIsKnown(reg, t) ==> CountBytes(SizeInserting(reg, t).0, t, count) == 0
  {
  }

  /** An indexed type over a known base has the size of its blocks added up,
      block by block. */
  lemma {:induction false} IndexedIsSumOfBlocks(reg: Registry, lengths: seq<int>, base: int)
    requires base in reg
    ensures IndexedSize(reg, lengths, base)
         == Some(Sum(BlockBytes(reg, lengths, seq(|lengths|, _ => base))))
    decreases |lengths|
  {
    var olds := seq(|lengths|, _ => base);
    if |lengths| > 0 {
      var n := |lengths| - 1;
      var init := lengths[..n];
      IndexedIsSumOfBlocks(reg, init, base);
      assert BlockBytes(reg, lengths, olds)[..n] == BlockBytes(reg, init, seq(n, _ => base));
      CountBytesAdditive(reg, base, Sum(init), lengths[n]);
    }
  }

  /** A struct whose blocks all use one known type has the size of the
      indexed type with the same block lengths. */
  lemma StructOfOneTypeIsIndexed(reg: Registry, blocklengths: seq<int>, base: int)
    requires base in reg
    ensures StructSize(reg, blocklengths, seq(|blocklengths|, _ => base)) == IndexedSize(reg, blocklengths, base)
  {
    StructSizeIsSumOfBlocks(reg, blocklengths, seq(|blocklengths|, _ => base));
    IndexedIsSumOfBlocks(reg, blocklengths, base);
  }

  /** A vector has the size of a contiguous type of `count` elements of a
      contiguous type of `blocklength` elements of the base type. */
  lemma VectorIsNestedContiguous(reg: Registry, count: int, blocklength: int, base: int, inner: int)
    requires base in reg
    ensures VectorSize(reg, count, blocklength, base)
         == ContiguousSize(Define(reg, inner, ContiguousSize(reg, blocklength, base)), count, inner)
  {
  }

  /** No derivation from an unknown base type changes the registry. */
  lemma UnknownBaseChangesNothing(reg: Registry, base: int, derived: int, count: int, blocklength: int, lengths: seq<int>)
    requires base !in reg
    ensures Define(reg, derived, ContiguousSize(reg, count, base)) == reg
    ensures Define(reg, derived, VectorSize(reg, count, blocklength, base)) == reg
    ensures Define(reg, derived, IndexedSize(reg, lengths, base)) == reg
  {
  }

  /** A struct with any unknown constituent writes nothing, not even the
      sum of the blocks before it. */
  lemma StructUnknownChangesNothing(reg: Registry, blocklengths: seq<int>, oldtypes: seq<int>, derived: int, j: int)
    requires |blocklengths| == |oldtypes|
    requires 0 <= j < |oldtypes| && oldtypes[j] !in reg
    ensures Define(reg, derived, StructSize(reg, blocklengths, oldtypes)) == reg
  {
    StructSizeIsSumOfBlocks(reg, blocklengths, oldtypes);
  }
}

=== FILE: writer.dfy ===
/** The writer of one rank: the type registry, the request tracker, the
    group and communicator tables, the running time window and the event
    counter, and the trace of emitted records. Every traced call is
    bracketed by a region enter (at its start time) and leave (at its stop
    time); the records of the call itself go in between. */
module Writer {
  import opened Common
  import opened Events
  import TypeSizes
  import Requests
  import Groups
  import Comms
  import GlobalIds
  import Collectives

  datatype State = State(
    worldRank: int,
    worldSize: int,
    tracker: Requests.Tracker,
    types: TypeSizes.Registry,
    groups: Groups.GroupTable,
    comms: Comms.CommTable,
    commWorldId: int,
    commSelfId: int,
    commErrorId: int,
    commNullId: int,
    startTime: int,
    stopTime: int,
    eventCount: int,
    trace: seq<Record>)

  /** What a traced call returns: the new state with its result code, the
      process abort of `complete_call`, or the exception of an
      unimplemented operation. */
  datatype Status = Success | UnknownMpiType
  datatype Outcome = Done(w: State, status: Status) | Aborted | Unimplemented

  /** The initial `start_time_`, `~0` as an unsigned 64-bit time. */
  const NoStart: int := 0xFFFF_FFFF_FFFF_FFFF

  function Min(a: int, b: int): int { if a <= b then a else b }
  function Max(a: int, b: int): int { if a <= b then b else a }

  // ---------------------------------------------------------------------
  // Invariants

  /** Enter and call records are stamped at a call's start, leave and
      collective-end records at its stop. */
  predicate StampedAtStop(r: Record)
  {
    r.Leave? || r.CollectiveEnd?
  }

  /** The time window covers every record on its side. */
  predicate InWindow(r: Record, lo: int, hi: int)
  {
    if StampedAtStop(r) then r.time <= hi else lo <= r.time
  }

  /** `event_count_` counts the records emitted, the window covers them,
      and the tracker is well formed. */
  ghost predicate Valid(w: State)
  {
    && w.eventCount == |w.trace|
    && (forall i :: 0 <= i < |w.trace| ==> InWindow(w.trace[i], w.startTime, w.stopTime))
    && Requests.WellFormed(w.tracker)
  }

  /** The tables (and everything but the window and the trace) agree. */
  ghost predicate SameTables(a: State, b: State)
  {
    a == b.(startTime := a.startTime, stopTime := a.stopTime, eventCount := a.eventCount, trace := a.trace)
  }

  /** The writer after construction and `open_archive(path, size, rank)`.
      The null-request sentinel has no initial value in the source; it is
      taken as given here. */
  function Init(rank: int, size: int, nullRequest: int): (w: State)
    ensures Valid(w)
    ensures w.trace == [] && w.types == map[] && w.comms == map[] && w.groups == map[]
    ensures w.commWorldId == -1 && w.commSelfId == -1
  {
    State(rank, size, Requests.Empty(nullRequest), map[], map[], map[], -1, -1, -1, -1,
          NoStart, 0, 0, [])
  }

  // ---------------------------------------------------------------------
  // The bracketing macros

  /** `_ENTER(name)`: widen the window to cover `[start, stop]` and emit the
      enter record. */
  function EnterRegion(w: State, name: string, start: int, stop: int): (r: State)
    ensures SameTables(w, r)
    ensures r.trace == w.trace + [Enter(start, name)] && r.eventCount == w.eventCount + 1
    ensures r.startTime <= start && r.startTime <= w.startTime && (r.startTime == start || r.startTime == w.startTime)
    ensures r.stopTime >= stop && r.stopTime >= w.stopTime && (r.stopTime == stop || r.stopTime == w.stopTime)
    ensures Valid(w) ==> Valid(r)
  {
    var r := w.(startTime := Min(w.startTime, start), stopTime := Max(w.stopTime, stop),
                eventCount := w.eventCount + 1, trace := w.trace + [Enter(start, name)]);
    assert forall i :: 0 <= i < |w.trace| ==> r.trace[i] == w.trace[i];
    r
  }

  /** Emit records between enter and leave, one event each. */
  function Emit(w: State, recs: seq<Record>): (r: State)
    ensures SameTables(w, r) && r.startTime == w.startTime && r.stopTime == w.stopTime
    ensures r.trace == w.trace + recs && r.eventCount == w.eventCount + |recs|
    ensures Valid(w) && (forall i :: 0 <= i < |recs| ==> InWindow(recs[i], w.startTime, w.stopTime))
            ==> Valid(r)
  {
    w.(eventCount := w.eventCount + |recs|, trace := w.trace + recs)
  }

  /** `_LEAVE()`. */
  function LeaveRegion(w: State, name: string, stop: int): (r: State)
    ensures SameTables(w, r) && r.startTime == w.startTime && r.stopTime == w.stopTime
    ensures r.trace == w.trace + [Leave(stop, name)] && r.eventCount == w.eventCount + 1
    ensures Valid(w) && stop <= w.stopTime ==> Valid(r)
  {
    Emit(w, [Leave(stop, name)])
  }

  /** A whole traced call: enter, the call's records, leave. */
  function Bracket(w: State, name: string, start: int, stop: int, body: seq<Record>): (r: State)
    ensures SameTables(w, r)
    ensures r.trace == w.trace + [Enter(start, name)] + body + [Leave(stop, name)]
    ensures r.eventCount == w.eventCount + 2 + |body|
    ensures r.startTime == Min(w.startTime, start) && r.stopTime == Max(w.stopTime, stop)
    ensures Valid(w) && (forall i :: 0 <= i < |body| ==> InWindow(body[i], Min(w.startTime, start), Max(w.stopTime, stop)))
            ==> Valid(r)
  {
    LeaveRegion(Emit(EnterRegion(w, name, start, stop), body), name, stop)
  }

  /** Records stamped at `start` always fall in the window of the call. */
  lemma StartStampsInWindow(w: State, start: int, stop: int, recs: seq<Record>)
    ensures (forall i :: 0 <= i < |recs| ==> !StampedAtStop(recs[i]) && recs[i].time == start)
            ==> forall i :: 0 <= i < |recs| ==> InWindow(recs[i], Min(w.startTime, start), Max(w.stopTime, stop))
  {
  }

  // ---------------------------------------------------------------------
  // Point-to-point calls

  /** `generic_call` and every traced call with nothing between enter and
      leave (`mpi_comm_dup`, `mpi_comm_create`, `mpi_comm_split`,
      `mpi_comm_group`, `mpi_group_*`). */
  function GenericCall(w: State, start: int, stop: int, name: string): (r: State)
    ensures SameTables(w, r)
    ensures r.trace == w.trace + [Enter(start, name), Leave(stop, name)]
    ensures r.eventCount == w.eventCount + 2
    ensures Valid(w) ==> Valid(r)
  {
    Bracket(w, name, start, stop, [])
  }

  /** `mpi_comm_group`: the group check after `_LEAVE` is never reached, so
      a mismatched group is not reported. */
  function CommGroup(w: State, start: int, stop: int, comm: int, group: int): (r: Outcome)
    ensures r.Done? && r.status == Success
    ensures r.w == GenericCall(w, start, stop, "MPI_Comm_group")
  {
    Done(GenericCall(w, start, stop, "MPI_Comm_group"), Success)
  }

  /** `mpi_send`, `mpi_bsend`, `mpi_ssend`, `mpi_rsend`: the size is read
      through `type_sizes_[type]`, which registers an unknown type with
      size 0 and records 0 bytes. */
  function SendCall(w: State, start: int, stop: int, name: string, dtype: int, count: int,
                    dest: int, comm: int, tag: int): (r: State)
    ensures r.types == TypeSizes.SizeInserting(w.types, dtype).0
    ensures r.tracker == w.tracker && r.groups == w.groups && r.comms == w.comms
    ensures r.trace == w.trace + [Enter(start, name),
                                  Send(start, dest, comm, tag, TypeSizes.SizeInserting(w.types, dtype).1 * count),
                                  Leave(stop, name)]
    ensures r.eventCount == w.eventCount + 3
    ensures Valid(w) ==> Valid(r)
  {
    var (types', width) := TypeSizes.SizeInserting(w.types, dtype);
    Bracket(w.(types := types'), name, start, stop, [Send(start, dest, comm, tag, width * count)])
  }

  /** `mpi_recv`: the size goes through `count_bytes`, leaving the registry
      as it is. */
  function RecvCall(w: State, start: int, stop: int, dtype: int, count: int,
                    source: int, comm: int, tag: int): (r: State)
    ensures SameTables(w, r)
    ensures r.trace == w.trace + [Enter(start, "MPI_Recv"),
                                  Recv(start, source, comm, tag, TypeSizes.CountBytes(w.types, dtype, count)),
                                  Leave(stop, "MPI_Recv")]
    ensures r.eventCount == w.eventCount + 3
    ensures Valid(w) ==> Valid(r)
  {
    Bracket(w, "MPI_Recv", start, stop, [Recv(start, source, comm, tag, TypeSizes.CountBytes(w.types, dtype, count))])
  }

  /** A send and a receive of the same unregistered type disagree: the send
      records 0 bytes (and registers the type with size 0), the receive
      the 4-byte default. */
  lemma SendAndRecvDisagreeOnUnknownType(w: State, start: int, stop: int, dtype: int, count: int,
                                         peer: int, comm: int, tag: int)
    requires dtype !in w.types && count != 0
    ensures SendCall(w, start, stop, "MPI_Send", dtype, count, peer, comm, tag).trace[|w.trace| + 1].bytes == 0
    ensures RecvCall(w, start, stop, dtype, count, peer, comm, tag).trace[|w.trace| + 1].bytes == TypeSizes.DefaultSize * count
    ensures SendCall(w, start, stop, "MPI_Send", dtype, count, peer, comm, tag).types[dtype] == 0
  {
  }

  /** `mpi_isend`, `mpi_ibsend`, `mpi_issend`, `mpi_irsend`. */
  function IsendCall(w: State, start: int, stop: int, name: string, dtype: int, count: int,
                     dest: int, comm: int, tag: int, request: int): (r: State)
    ensures r.tracker == Requests.Begin(w.tracker, request, Requests.ISend)
    ensures r.types == w.types && r.groups == w.groups && r.comms == w.comms
    ensures r.trace == w.trace + [Enter(start, name),
                                  Isend(start, dest, comm, tag, TypeSizes.CountBytes(w.types, dtype, count), request),
                                  Leave(stop, name)]
    ensures r.eventCount == w.eventCount + 3
    ensures Valid(w) ==> Valid(r)
  {
    Requests.BeginPreservesWellFormed(w.tracker, request, Requests.Capture(0, 0, 0, 0, 0));
    Bracket(w.(tracker := Requests.Begin(w.tracker, request, Requests.ISend)), name, start, stop,
            [Isend(start, dest, comm, tag, TypeSizes.CountBytes(w.types, dtype, count), request)])
  }

  /** `mpi_irecv`: the receive is captured with its `count_bytes` size. */
  function IrecvCall(w: State, start: int, stop: int, dtype: int, count: int,
                     source: int, comm: int, tag: int, request: int): (r: State)
    ensures r.tracker == Requests.BeginIrecv(w.tracker, request,
                           Requests.Capture(TypeSizes.CountBytes(w.types, dtype, count), source, tag, comm, request))
    ensures r.types == w.types && r.groups == w.groups && r.comms == w.comms
    ensures r.trace == w.trace + [Enter(start, "MPI_Irecv"), IrecvRequest(start, request), Leave(stop, "MPI_Irecv")]
    ensures r.eventCount == w.eventCount + 3
    ensures Valid(w) ==> Valid(r)
  {
    var c := Requests.Capture(TypeSizes.CountBytes(w.types, dtype, count), source, tag, comm, request);
    Requests.BeginPreservesWellFormed(w.tracker, request, c);
    Bracket(w.(tracker := Requests.BeginIrecv(w.tracker, request, c)), "MPI_Irecv", start, stop,
            [IrecvRequest(start, request)])
  }

  // ---------------------------------------------------------------------
  // Completion calls

  /** A completing call: abort when the batch aborts, otherwise the batch's
      records between enter and leave. */
  function Completing(w: State, name: string, start: int, stop: int, c: Requests.Completion): (r: Outcome)
    ensures r.Aborted? <==> c.Aborted?
    ensures r.Done? ==> r.status == Success && r.w.tracker == c.tracker
    ensures r.Done? ==> r.w.trace == w.trace + [Enter(start, name)] + c.records + [Leave(stop, name)]
    ensures r.Done? ==> r.w.eventCount == w.eventCount + 2 + |c.records|
    ensures r.Done? ==> r.w.types == w.types && r.w.groups == w.groups && r.w.comms == w.comms
    ensures Valid(w) && Requests.Settled(w.tracker, c, start) && r.Done? ==> Valid(r.w)
    ensures Unimplemented != r
  {
    match c
    case Aborted => Aborted
    case Completed(t, recs) =>
      StartStampsInWindow(w, start, stop, recs);
      Done(Bracket(w.(tracker := t), name, start, stop, recs), Success)
  }

  /** `mpi_wait` and `mpi_waitany`: complete the one request. */
  function Wait(w: State, start: int, stop: int, name: string, request: int): (r: Outcome)
    ensures r == Completing(w, name, start, stop, Requests.Complete(w.tracker, request, start))
    ensures Valid(w) && r.Done? ==> Valid(r.w)
  {
    Requests.CompleteSettles(w.tracker, request, start);
    Completing(w, name, start, stop, Requests.Complete(w.tracker, request, start))
  }

  /** `mpi_waitall`: each distinct non-null request once. */
  function WaitAll(w: State, start: int, stop: int, requests: seq<int>): (r: Outcome)
    ensures r == Completing(w, "MPI_Waitall", start, stop,
                            Requests.CompleteEach(w.tracker, Requests.Dedup(requests, w.tracker.nullId, {}), start))
    ensures Valid(w) && r.Done? ==> Valid(r.w)
  {
    Requests.WaitAllIsDedupedCompletion(w.tracker, requests, {}, start);
    Completing(w, "MPI_Waitall", start, stop, Requests.WaitAllLoop(w.tracker, requests, {}, start))
  }

  /** `mpi_waitsome` and `mpi_testsome`: `requests[indices[i]]` for each
      `i < outcount`, repeats included; a negative `outcount`
      (`MPI_UNDEFINED`) leaves only the enter and leave records. */
  function WaitSome(w: State, start: int, stop: int, name: string, requests: seq<int>,
                    outcount: int, indices: seq<int>): (r: Outcome)
    requires outcount <= |indices|
    requires forall i :: 0 <= i < outcount ==> 0 <= indices[i] < |requests|
    ensures outcount <= 0 ==> r == Done(GenericCall(w, start, stop, name), Success)
    ensures r == Completing(w, name, start, stop,
                            Requests.CompleteEach(w.tracker, Requests.Selected(requests, indices, outcount), start))
    ensures Valid(w) && r.Done? ==> Valid(r.w)
  {
    Completing(w, name, start, stop, Requests.WaitSome(w.tracker, requests, indices, outcount, start))
  }

  /** `mpi_test`: completes only when `flag` is set. */
  function Test(w: State, start: int, stop: int, request: int, flag: int): (r: Outcome)
    ensures flag == 0 ==> r == Done(GenericCall(w, start, stop, "MPI_Test"), Success)
    ensures flag != 0 ==> r == Completing(w, "MPI_Test", start, stop, Requests.Complete(w.tracker, request, start))
    ensures Valid(w) && r.Done? ==> Valid(r.w)
  {
    Requests.CompleteSettles(w.tracker, request, start);
    Completing(w, "MPI_Test", start, stop, Requests.Test(w.tracker, request, flag, start))
  }

  /** `mpi_testany`: completes `requests[index]` when `flag` is set and
      `index` names a request (the guarded form of the source). */
  function TestAny(w: State, start: int, stop: int, requests: seq<int>, index: int, flag: int): (r: Outcome)
    ensures flag == 0 || !(0 <= index < |requests|) ==> r == Done(GenericCall(w, start, stop, "MPI_Testany"), Success)
    ensures flag != 0 && 0 <= index < |requests| ==>
              r == Completing(w, "MPI_Testany", start, stop, Requests.Complete(w.tracker, requests[index], start))
    ensures Valid(w) && r.Done? ==> Valid(r.w)
  {
    Requests.CompleteSettles(w.tracker, if flag != 0 && 0 <= index < |requests| then requests[index] else w.tracker.nullId, start);
    Completing(w, "MPI_Testany", start, stop, Requests.TestAny(w.tracker, requests, index, flag, start))
  }

  /** `mpi_testall`: when `flag` is set, every request in order, with
      neither the null id nor repeats skipped. */
  function TestAll(w: State, start: int, stop: int, requests: seq<int>, flag: int): (r: Outcome)
    ensures flag == 0 ==> r == Done(GenericCall(w, start, stop, "MPI_Testall"), Success)
    ensures flag != 0 ==> r == Completing(w, "MPI_Testall", start, stop, Requests.CompleteEach(w.tracker, requests, start))
    ensures Valid(w) && r.Done? ==> Valid(r.w)
  {
    Completing(w, "MPI_Testall", start, stop, Requests.TestAll(w.tracker, requests, flag, start))
  }

  /** A receive issued by `mpi_irecv` and completed by `mpi_wait` yields the
      receive record with the source, communicator, tag and size captured at
      issue time, stamped at the wait's start, and leaves the request
      untracked. */
  lemma IrecvThenWait(w: State, s1: int, e1: int, dtype: int, count: int, source: int, comm: int, tag: int,
                      request: int, s2: int, e2: int)
    requires Valid(w) && request != w.tracker.nullId
    ensures var w1 := IrecvCall(w, s1, e1, dtype, count, source, comm, tag, request);
            var r := Wait(w1, s2, e2, "MPI_Wait", request);
            && r.Done?
            && r.w.trace == w1.trace + [Enter(s2, "MPI_Wait"),
                                        Irecv(s2, source, comm, tag, TypeSizes.CountBytes(w.types, dtype, count), request),
                                        Leave(e2, "MPI_Wait")]
            && request !in r.w.tracker.kinds
            && Valid(r.w)
  {
  }

  /** The same for `mpi_isend`: the completion record names the request. */
  lemma IsendThenWait(w: State, s1: int, e1: int, dtype: int, count: int, dest: int, comm: int, tag: int,
                      request: int, s2: int, e2: int)
    requires Valid(w) && request != w.tracker.nullId
    ensures var w1 := IsendCall(w, s1, e1, "MPI_Isend", dtype, count, dest, comm, tag, request);
            var r := Wait(w1, s2, e2, "MPI_Wait", request);
            && r.Done?
            && r.w.trace == w1.trace + [Enter(s2, "MPI_Wait"), IsendComplete(s2, request), Leave(e2, "MPI_Wait")]
            && request !in r.w.tracker.kinds
            && Valid(r.w)
  {
  }

  // ---------------------------------------------------------------------
  // Collectives

  /** `mpi_barrier` … `mpi_reduce_scatter`: enter, collective begin at the
      start, collective end at the stop with the call's byte accounting,
      leave. `ranks` holds what the rank queries answer for this call and
      `undefinedRoot` is the sentinel reported by unrooted calls. */
  function Collective(w: State, start: int, stop: int, name: string, comm: int,
                      ranks: Collectives.Ranks, call: Collectives.Call, undefinedRoot: int): (r: State)
    requires Collectives.ArgumentsInRange(ranks, call)
    ensures r.eventCount == w.eventCount + 4 && |r.trace| == |w.trace| + 4
    ensures r.startTime <= start && r.startTime <= w.startTime && (r.startTime == start || r.startTime == w.startTime)
    ensures r.stopTime >= stop && r.stopTime >= w.stopTime && (r.stopTime == stop || r.stopTime == w.stopTime)
    ensures var f := Collectives.Account(w.types, w.worldRank, ranks, call);
            && r.types == f.reg
            && r.trace == w.trace + [Enter(start, name), CollectiveBegin(start),
                                     CollectiveEnd(stop, Collectives.OpOf(call), comm,
                                                   Collectives.RootOf(call, undefinedRoot), f.sent, f.received),
                                     Leave(stop, name)]
    ensures r.tracker == w.tracker && r.groups == w.groups && r.comms == w.comms
    ensures Valid(w) ==> Valid(r)
  {
    var f := Collectives.Account(w.types, w.worldRank, ranks, call);
    Bracket(w.(types := f.reg), name, start, stop,
            [CollectiveBegin(start),
             CollectiveEnd(stop, Collectives.OpOf(call), comm, Collectives.RootOf(call, undefinedRoot), f.sent, f.received)])
  }

  // ---------------------------------------------------------------------
  // Type registration and derived types

  /** `register_type`. */
  function RegisterType(w: State, dtype: int, size: int): (r: State)
    ensures r == w.(types := TypeSizes.RegisterType(w.types, dtype, size))
    ensures TypeSizes.CountBytes(r.types, dtype, 1) == size
    ensures Valid(w) ==> Valid(r)
  {
    w.(types := TypeSizes.RegisterType(w.types, dtype, size))
  }

  /** `mpi_type_contiguous` and `mpi_type_create_subarray`: an unknown base
      type returns the unknown-type error right after the enter record (no
      leave record); otherwise the size is stored. */
  function TypeDerivedOrFail(w: State, start: int, stop: int, name: string, size: Option<int>, derived: int): (r: Outcome)
    ensures r.Done?
    ensures size.None? ==> r.status == UnknownMpiType && r.w == EnterRegion(w, name, start, stop)
    ensures size.Some? ==> r.status == Success && r.w.types == TypeSizes.RegisterType(w.types, derived, size.value)
                           && r.w.trace == w.trace + [Enter(start, name), Leave(stop, name)]
    ensures SameTables(w.(types := r.w.types), r.w)
    ensures Valid(w) ==> Valid(r.w)
  {
    if size.None? then Done(EnterRegion(w, name, start, stop), UnknownMpiType)
    else Done(Bracket(w.(types := TypeSizes.Define(w.types, derived, size)), name, start, stop, []), Success)
  }

  function TypeContiguous(w: State, start: int, stop: int, count: int, base: int, derived: int): (r: Outcome)
    ensures r.Done? && (r.status == UnknownMpiType <==> base !in w.types)
    ensures r.status == UnknownMpiType ==> r.w.types == w.types && r.w.eventCount == w.eventCount + 1
    ensures r.status == Success ==> TypeSizes.CountBytes(r.w.types, derived, 1) == TypeSizes.CountBytes(w.types, base, count)
    ensures r.status == Success ==> r.w.types == TypeSizes.RegisterType(w.types, derived, TypeSizes.CountBytes(w.types, base, count))
    ensures r.status == Success ==> r.w.trace == w.trace + [Enter(start, "MPI_Type_contiguous"), Leave(stop, "MPI_Type_contiguous")]
    ensures SameTables(w.(types := r.w.types), r.w)
    ensures Valid(w) ==> Valid(r.w)
  {
    TypeDerivedOrFail(w, start, stop, "MPI_Type_contiguous", TypeSizes.ContiguousSize(w.types, count, base), derived)
  }

  function TypeSubarray(w: State, start: int, stop: int, subsizes: seq<int>, base: int, derived: int): (r: Outcome)
    ensures r.Done? && (r.status == UnknownMpiType <==> base !in w.types)
    ensures r.status == UnknownMpiType ==> r.w.types == w.types && r.w.eventCount == w.eventCount + 1
    ensures r.status == Success ==> TypeSizes.CountBytes(r.w.types, derived, 1) == TypeSizes.CountBytes(w.types, base, Sum(subsizes))
    ensures r.status == Success ==> r.w.types == TypeSizes.RegisterType(w.types, derived, TypeSizes.CountBytes(w.types, base, Sum(subsizes)))
    ensures r.status == Success ==> r.w.trace == w.trace + [Enter(start, "MPI_Type_create_subarray"), Leave(stop, "MPI_Type_create_subarray")]
    ensures SameTables(w.(types := r.w.types), r.w)
    ensures Valid(w) ==> Valid(r.w)
  {
    TypeDerivedOrFail(w, start, stop, "MPI_Type_create_subarray", TypeSizes.IndexedSize(w.types, subsizes, base), derived)
  }

  /** The vector, indexed and struct families always return success with a
      full bracket; a failed derivation only leaves the registry alone. */
  function TypeDerived(w: State, start: int, stop: int, name: string, size: Option<int>, derived: int): (r: State)
    ensures size.None? ==> r.types == w.types
    ensures size.Some? ==> r.types == TypeSizes.RegisterType(w.types, derived, size.value)
    ensures r.trace == w.trace + [Enter(start, name), Leave(stop, name)]
    ensures SameTables(w.(types := r.types), r)
    ensures Valid(w) ==> Valid(r)
  {
    Bracket(w.(types := TypeSizes.Define(w.types, derived, size)), name, start, stop, [])
  }

  function TypeVector(w: State, start: int, stop: int, name: string, count: int, blocklength: int,
                      base: int, derived: int): (r: State)
    ensures base !in w.types ==> r.types == w.types
    ensures base in w.types ==> TypeSizes.CountBytes(r.types, derived, 1) == TypeSizes.CountBytes(w.types, base, blocklength) * count
    ensures base in w.types ==> r.types == TypeSizes.RegisterType(w.types, derived, TypeSizes.CountBytes(w.types, base, blocklength) * count)
    ensures r.trace == w.trace + [Enter(start, name), Leave(stop, name)]
    ensures SameTables(w.(types := r.types), r)
    ensures Valid(w) ==> Valid(r)
  {
    TypeDerived(w, start, stop, name, TypeSizes.VectorSize(w.types, count, blocklength, base), derived)
  }

  function TypeIndexed(w: State, start: int, stop: int, name: string, lengths: seq<int>,
                       base: int, derived: int): (r: State)
    ensures base !in w.types ==> r.types == w.types
    ensures base in w.types ==> TypeSizes.CountBytes(r.types, derived, 1) == TypeSizes.CountBytes(w.types, base, Sum(lengths))
    ensures base in w.types ==> r.types == TypeSizes.RegisterType(w.types, derived, TypeSizes.CountBytes(w.types, base, Sum(lengths)))
    ensures r.trace == w.trace + [Enter(start, name), Leave(stop, name)]
    ensures SameTables(w.(types := r.types), r)
    ensures Valid(w) ==> Valid(r)
  {
    TypeDerived(w, start, stop, name, TypeSizes.IndexedSize(w.types, lengths, base), derived)
  }

  function TypeStruct(w: State, start: int, stop: int, name: string, blocklengths: seq<int>,
                      oldtypes: seq<int>, derived: int): (r: State)
    requires |blocklengths| == |oldtypes|
    ensures (exists j :: 0 <= j < |oldtypes| && oldtypes[j] !in w.types) ==> r.types == w.types
    ensures (forall j :: 0 <= j < |oldtypes| ==> oldtypes[j] in w.types) ==>
              TypeSizes.CountBytes(r.types, derived, 1) == Sum(TypeSizes.BlockBytes(w.types, blocklengths, oldtypes))
    ensures (forall j :: 0 <= j < |oldtypes| ==> oldtypes[j] in w.types) ==>
              r.types == TypeSizes.RegisterType(w.types, derived, Sum(TypeSizes.BlockBytes(w.types, blocklengths, oldtypes)))
    ensures r.trace == w.trace + [Enter(start, name), Leave(stop, name)]
    ensures SameTables(w.(types := r.types), r)
    ensures Valid(w) ==> Valid(r)
  {
    TypeSizes.StructSizeIsSumOfBlocks(w.types, blocklengths, oldtypes);
    TypeDerived(w, start, stop, name, TypeSizes.StructSize(w.types, blocklengths, oldtypes), derived)
  }

  // ---------------------------------------------------------------------
  // Communicator registration

  /** `register_comm_world`: marks the comm-world group and fills in the
      comm-world entry, but adds no group members and leaves
      `comm_world_id_` unset. */
  function RegisterCommWorld(w: State, id: int): (r: State)
    ensures r.commWorldId == w.commWorldId
    ensures r.groups.Keys == w.groups.Keys + {Comms.CommWorldGroupId}
    ensures r.groups[Comms.CommWorldGroupId].isCommWorld
    ensures r.groups[Comms.CommWorldGroupId].globalRanks == Groups.Lookup(w.groups, Comms.CommWorldGroupId).globalRanks
    ensures r.comms.Keys == w.comms.Keys + {Comms.CommWorldId}
    ensures var c := r.comms[Comms.CommWorldId];
            c.localId == Comms.CommWorldId && c.globalId == Comms.CommWorldId
            && c.localGroupId == Comms.CommWorldGroupId && c.name == "MPI_COMM_WORLD"
            && c.subComms == Comms.Lookup(w.comms, Comms.CommWorldId).subComms
            && c.isRoot == Comms.Lookup(w.comms, Comms.CommWorldId).isRoot
    ensures forall k :: k in w.comms && k != Comms.CommWorldId ==> r.comms[k] == w.comms[k]
    ensures forall g :: g in w.groups && g != Comms.CommWorldGroupId ==> r.groups[g] == w.groups[g]
    ensures r == w.(groups := r.groups, comms := r.comms)
    ensures r.trace == w.trace && (Valid(w) ==> Valid(r))
  {
    var g := Groups.Lookup(w.groups, Comms.CommWorldGroupId).(isCommWorld := true, localId := Comms.CommWorldGroupId);
    var c := Comms.Lookup(w.comms, Comms.CommWorldId).(localId := Comms.CommWorldId, globalId := Comms.CommWorldId,
                                                       localGroupId := Comms.CommWorldGroupId, name := "MPI_COMM_WORLD");
    w.(groups := w.groups[Comms.CommWorldGroupId := g], comms := w.comms[Comms.CommWorldId := c])
  }

  /** `register_comm_self`: records the id and fills in the comm-self entry. */
  function RegisterCommSelf(w: State, id: int): (r: State)
    ensures r == w.(commSelfId := id, comms := r.comms)
    ensures r.comms.Keys == w.comms.Keys + {Comms.CommSelfId}
    ensures var c := r.comms[Comms.CommSelfId];
            c.localId == Comms.CommSelfId && c.globalId == Comms.CommSelfId
            && c.localGroupId == Comms.CommSelfGroupId && c.name == "MPI_COMM_SELF"
    ensures forall k :: k in w.comms && k != Comms.CommSelfId ==> r.comms[k] == w.comms[k]
    ensures r.trace == w.trace && (Valid(w) ==> Valid(r))
  {
    var c := Comms.Lookup(w.comms, Comms.CommSelfId).(localId := Comms.CommSelfId, globalId := Comms.CommSelfId,
                                                      localGroupId := Comms.CommSelfGroupId, name := "MPI_COMM_SELF");
    w.(commSelfId := id, comms := w.comms[Comms.CommSelfId := c])
  }

  /** `register_null_request`: the sentinel may change only while it names
      no outstanding request for the tracker to stay well formed. */
  function RegisterNullRequest(w: State, id: int): (r: State)
    ensures r == w.(tracker := w.tracker.(nullId := id))
    ensures Valid(w) && id !in w.tracker.kinds ==> Valid(r)
  {
    w.(tracker := w.tracker.(nullId := id))
  }

  // ---------------------------------------------------------------------
  // First passes (no events)

  function GroupInclFirstPass(w: State, group: int, ranks: seq<int>, newgroup: int): (r: State)
    requires group != newgroup
    requires Groups.IndicesIn(ranks, |Groups.Lookup(w.groups, group).globalRanks|)
    ensures newgroup in r.groups
    ensures r.groups[newgroup].globalRanks == Groups.Incl(Groups.Lookup(w.groups, group).globalRanks, ranks)
    ensures r.groups[newgroup] == Groups.Lookup(w.groups, newgroup).(globalRanks := r.groups[newgroup].globalRanks)
    ensures r.groups == Groups.GroupInclFirstPass(w.groups, group, ranks, newgroup)
    ensures r.groups.Keys == w.groups.Keys + {group, newgroup}
    ensures forall g :: g in w.groups && g != newgroup ==> r.groups[g] == w.groups[g]
    ensures r == w.(groups := r.groups)
    ensures r.trace == w.trace && r.eventCount == w.eventCount && (Valid(w) ==> Valid(r))
  {
    w.(groups := Groups.GroupInclFirstPass(w.groups, group, ranks, newgroup))
  }

  function GroupExclFirstPass(w: State, group: int, ranks: seq<int>, newgroup: int): (r: State)
    requires group != newgroup
    requires Groups.IndicesIn(ranks, |Groups.Lookup(w.groups, group).globalRanks|) && Groups.Distinct(ranks)
    ensures newgroup in r.groups
    ensures r.groups[newgroup].globalRanks == Groups.Excl(Groups.Lookup(w.groups, group).globalRanks, ranks)
    ensures r.groups[newgroup] == Groups.Lookup(w.groups, newgroup).(globalRanks := r.groups[newgroup].globalRanks)
    ensures r.groups == Groups.GroupExclFirstPass(w.groups, group, ranks, newgroup)
    ensures r.groups.Keys == w.groups.Keys + {group, newgroup}
    ensures forall g :: g in w.groups && g != newgroup ==> r.groups[g] == w.groups[g]
    ensures r == w.(groups := r.groups)
    ensures r.trace == w.trace && r.eventCount == w.eventCount && (Valid(w) ==> Valid(r))
  {
    Groups.ExclRemovesExactly(Groups.Lookup(w.groups, group).globalRanks, ranks);
    w.(groups := Groups.GroupExclFirstPass(w.groups, group, ranks, newgroup))
  }

  /** `mpi_group_union_first_pass`, `..._difference_...`,
      `..._intersection_...` and `..._range_incl_...` throw. */
  function GroupUnimplementedFirstPass(w: State): (r: Outcome)
  {
    Unimplemented
  }

  function CommDupFirstPass(w: State, comm: int, newcomm: int): (r: State)
    ensures r == w.(comms := Comms.CommDupFirstPass(w.comms, comm, newcomm))
    ensures r.trace == w.trace && r.eventCount == w.eventCount && (Valid(w) ==> Valid(r))
  {
    w.(comms := Comms.CommDupFirstPass(w.comms, comm, newcomm))
  }

  function CommCreateFirstPass(w: State, comm: int, group: int, newcomm: int): (r: State)
    requires |Groups.Lookup(w.groups, group).globalRanks| > 0
    ensures r == w.(comms := Comms.CommCreateFirstPass(w.comms, w.groups, w.worldRank, comm, group, newcomm))
    ensures r.trace == w.trace && r.eventCount == w.eventCount && (Valid(w) ==> Valid(r))
  {
    w.(comms := Comms.CommCreateFirstPass(w.comms, w.groups, w.worldRank, comm, group, newcomm))
  }

  // ---------------------------------------------------------------------
  // Global ids

  /** `agree_global_ids`: the calls made on the assigner, or `None` when the
      `sub_comms` links do not form a forest. Every `assign_current` sits
      at the tree position where the assign pass asks for the id of a
      communicator this rank leads, and nowhere else. */
  function AgreeGlobalIds(w: State): (r: Option<seq<GlobalIds.Op>>)
    ensures r.Some? <==> Comms.WorldForest(w.comms).Some?
    ensures r.Some? ==> GlobalIds.AssignCount(r.value)
                        == GlobalIds.RootCount(GlobalIds.PreOrderList(Comms.WorldForest(w.comms).value))
    ensures r.Some? ==>
              forall getId: seq<GlobalIds.Op> -> int ::
                GlobalIds.HistoriesAt(r.value, GlobalIds.AssignCurrent, [])
                == GlobalIds.RootsOnly(GlobalIds.HistoriesAt(GlobalIds.AssignGlobalIds(Comms.WorldForest(w.comms).value, getId).0,
                                                             GlobalIds.GetId, []),
                                       GlobalIds.PreOrderList(Comms.WorldForest(w.comms).value))
  {
    match Comms.WorldForest(w.comms)
    case None => None
    case Some(forest) =>
      GlobalIds.AgreeClaimsRoots(forest);
      Some(GlobalIds.AgreeGlobalIds(forest))
  }

  /** The comm table once `comms_[MPI_COMM_WORLD_ID]` has been read: the
      comm-world entry exists, default-constructed if it was missing. */
  function WithWorld(comms: Comms.CommTable): (r: Comms.CommTable)
    ensures r.Keys == comms.Keys + {Comms.CommWorldId}
    ensures r[Comms.CommWorldId] == Comms.Lookup(comms, Comms.CommWorldId)
    ensures forall c :: c in comms ==> r[c] == comms[c]
  {
    comms[Comms.CommWorldId := Comms.Lookup(comms, Comms.CommWorldId)]
  }

  /** `assign_global_ids`: the comm-world entry is created if missing, and
      every communicator of the forest receives the id the assigner hands
      out at its place in the traversal; nothing else in the state
      changes. */
  function AssignGlobalIds(w: State, getId: seq<GlobalIds.Op> -> int): (r: Option<State>)
    ensures r.Some? <==> Comms.WorldForest(w.comms).Some?
    ensures r.Some? ==> r.value == w.(comms := r.value.comms)
    ensures r.Some? ==> r.value.comms.Keys == w.comms.Keys + {Comms.CommWorldId}
    ensures r.Some? ==> GlobalIds.StoredEvery(WithWorld(w.comms), r.value.comms, Comms.WorldForest(w.comms).value,
                                              GlobalIds.AssignGlobalIds(Comms.WorldForest(w.comms).value, getId).1)
    ensures r.Some? && Valid(w) ==> Valid(r.value)
  {
    match Comms.WorldForest(w.comms)
    case None => None
    case Some(forest) =>
      var table := WithWorld(w.comms);
      Comms.AllInTableWider(forest, w.comms, table);
      GlobalIds.StoreIdsCoversForest(table, forest, GlobalIds.AssignGlobalIds(forest, getId).1);
      Some(w.(comms := GlobalIds.StoreIds(table, GlobalIds.AssignGlobalIds(forest, getId).1)))
  }
}
